=== FILE: README.md ===
# Swish CSV to PDF converter — a Dafny model

The converter reads the semicolon-separated transaction export of Swish, the
Swedish mobile payment service, and lays it out as a PDF report. A file has
three sections:

- metadata lines `key;value`;
- a summary block headed by a line starting with `MARKNADSNAMN`;
- a transaction table headed by a line starting with `DATUM`.

This project models, over text already in memory:

- the section splitter and the metadata, summary and transaction parsers (`CsvParser`);
- the report records and their derived values (`SwishData`);
- the validation service, whose checks answer with a Swedish message (`Validator`);
- the table data and column widths of the generated document (`Layout`, `PdfGenerator`);
- the older stand-alone converter, with its own splitter and column selection (`LegacyConverter`);
- the output file name (`FileHandler`);
- the controller's transitions when a file is loaded, a document is generated, or the settings change (`Controller`).

Python's string and number primitives are written out in `Text` and
`Dates`. These include `strip`, `split`, `startswith`, `in`, `lower`,
`upper`, `int()`, `str()`, `strftime('%Y-%m-%d')` and `strptime`. `Dicts` models a dictionary that is
built by successive assignment, where the last assignment wins. Exceptions are results: `Result`
and `Option` in `Results`, a `Verdict` for the validator, and `LayoutError` for
a division by zero.

The document is a list of abstract blocks: headings, spacers, and tables of
rows with column widths. Widths are exact reals.

The main properties proved:

- Section splitting:
  - the splitter's left fold equals a reference definition by the first marker lines;
  - the three sections partition the cleaned lines in order, with the state only moving forward.
- The legacy splitter agrees with the service's splitter whenever no line cleans to nothing.
- Table widths:
  - proportional widths fill the table exactly, are non-negative, and are ordered like the column lengths;
  - equal widths fill the table exactly.
- Validation and parsing do not agree. A file whose summary header contains
  `MARKNADSNAMN` without starting with it passes validation but fails to parse
  (`Controller.AcceptedButUnparsed`).
- Dates:
  - a formatted date reads back as itself;
  - the date in a suggested file name is the report's start date, or today.

## Model

| member | source | states |
|---|---|---|
| Text.ParseInt | src/services/csv_parser.py:159 | `int()` succeeds exactly on an optional sign and ASCII digits once surrounding whitespace is stripped |
| Text.IntToString | src/models/swish_data.py:65 | `str(n)`: a minus sign exactly when `n` is negative, then the decimal digits of its magnitude with no leading zero |
| Text.ParseIntToString | src/models/swish_data.py:65 | the decimal text `str()` gives for an integer reads back as that integer |
| Text.Repr | src/services/csv_parser.py:159 | `repr` of the text `int()` refuses: double quotes exactly when the text has an apostrophe and no double quote, single quotes otherwise; text with nothing to escape is shown as is between the quotes |
| Text.EscapeAppend | src/services/csv_parser.py:159 | `repr` escapes character by character: the escaped form of a concatenation is the concatenation of the escaped parts |
| Dates.FormatIsoDate | src/storage/file_handler.py:97 | `%Y-%m-%d` of a date is ten characters, with dashes at positions 4 and 7 |
| Dates.ParseIsoDate | src/controllers/main_controller.py:142 | `strptime(_, '%Y-%m-%d')` succeeds exactly on three dash-separated fields: a four-digit year, then a month and a day of one or two digits that make a real date, and the date read is those three numbers |
| Dates.ParseFormatIsoDate | src/storage/file_handler.py:97 | every date written with `%Y-%m-%d` reads back as the same date |
| Dates.FormatIsoDateExample | src/storage/file_handler.py:92 | 24 December 2025 is written `2025-12-24`, as in the documented file name |
| FileHandler.DottedExtension | src/storage/file_handler.py:99-100 | the extension always starts with a dot: it is kept when it has one, and a dot is prepended otherwise (`""` becomes `"."`) |
| FileHandler.DottedExtensionIdempotent | src/storage/file_handler.py:99-100 | an extension that already has its dot is never given a second one |
| FileHandler.GenerateFilename | src/storage/file_handler.py:94-102 | the name is the base name and `_`, then ten characters that read back as the given date (today when none is given), then the dotted extension |
| SwishData.DateRangeDisplay | src/models/swish_data.py:37-39 | the display is the text before the first comma, trimmed (the whole text trimmed when there is no comma); it holds no comma and has no whitespace at either end |
| SwishData.DateRangeDisplayIdempotent | src/models/swish_data.py:37-39 | applying the display to its own result changes nothing |
| SwishData.CellValue | src/models/swish_data.py:98-109 | an unknown column name shows as `''`, and so does an absent message or reference |
| SwishData.ToList | src/models/swish_data.py:109 | one value per requested column, in the requested order, duplicates included |
| SwishData.ToListAppend | src/models/swish_data.py:109 | projecting onto two column lists one after the other is projecting onto their concatenation |
| SwishData.ToListKnownColumns | src/models/swish_data.py:98-108 | projecting onto the nine known columns gives the fields in mapping order, with absent optional fields as `''` |
| SwishData.TransactionCount | src/models/swish_data.py:125-128 | the count is the number of transactions |
| SwishData.HasTransactions | src/models/swish_data.py:130-133 | a report has transactions exactly when its list is non-empty |
| SwishData.DisplayData | src/models/swish_data.py:64-67 | the payment count is shown as its `str()` text, which reads back as the count; the total amount is shown verbatim |
| SwishData.PreviewData | src/models/swish_data.py:143-148 | the preview carries the date-range display, the transaction count, the total amount and the market name unchanged |
| Dicts.DictOf | src/services/csv_parser.py:144-151 | the keys of a dictionary built by successive assignment are exactly the assigned keys, and each holds the value of its last assignment |
| CsvParser.Clean | src/services/csv_parser.py:107 | a cleaned line holds no `"` and has no whitespace at either end |
| CsvParser.CleanLines | src/services/csv_parser.py:105-110 | lines that clean to nothing are dropped; every kept line is non-empty and free of `"` |
| CsvParser.CleanLinesSnoc | src/services/csv_parser.py:105-110 | one more input line adds its cleaned form at the end, unless it cleans to nothing |
| CsvParser.RunIsSplitAtMarkers | src/services/csv_parser.py:105-132 | the line-by-line state machine ends where the reference split ends: metadata up to the first `MARKNADSNAMN` line, summary up to the first later `DATUM` line, transactions after |
| CsvParser.AppendToSplit | src/services/csv_parser.py:112-130 | one step of the state machine on the reference split of some lines is the reference split of those lines plus one |
| CsvParser.MarkerSplitShape | src/services/csv_parser.py:113-130 | the reference split partitions the lines in order. No metadata line starts with `MARKNADSNAMN`. The summary starts with the first such line, and none of its later lines starts with `DATUM`. Transactions start with a `DATUM` line and exist only after a summary |
| CsvParser.SplitSections | src/services/csv_parser.py:105-132 | metadata, summary and transactions concatenate to the cleaned lines, with the marker properties above and a final state that says which sections are present |
| CsvParser.StepAdvances | src/services/csv_parser.py:113-130 | a single line never moves the state backwards |
| CsvParser.SectionOnlyAdvances | src/services/csv_parser.py:113-130 | the state after any prefix of the lines is never later than the final state |
| CsvParser.MetadataEntries | src/services/csv_parser.py:146-151 | lines without `;` are ignored. The key is the text before the first `;`, stripped and with trailing colons removed. The value is the rest, stripped. A later line with the same key overrides an earlier one |
| CsvParser.IntField | src/services/csv_parser.py:159 | a missing key reads as 0; a present value is an error exactly when `int()` refuses it, and otherwise its integer |
| CsvParser.ParseMetadata | src/services/csv_parser.py:146-160 | each field is the dictionary's value or `''`. The result count is 0 when absent and the integer its text reads as when present. Parsing fails exactly when a present result count is not an integer |
| CsvParser.FieldMap | src/services/csv_parser.py:184-187 | the header/row mapping has exactly the stripped header names at the first `min(len(header), len(row))` positions, each with the stripped cell of its last occurrence |
| CsvParser.FieldMapKeysAssigned | src/services/csv_parser.py:184-187 | every key of the mapping is a stripped header name at a position the row reaches |
| CsvParser.FieldMapKeysPresent | src/services/csv_parser.py:184-187 | every stripped header name at a position the row reaches is a key |
| CsvParser.FieldMapLastWins | src/services/csv_parser.py:222-225 | a header name's value is the stripped cell at its last position within the row's reach |
| CsvParser.FirstNonAggregate | src/services/csv_parser.py:177-179 | the first line from a position on that does not start with `Total`, or none when all do |
| CsvParser.SummaryRowIndex | src/services/csv_parser.py:177-180 | the data row is the first line after the header not starting with `Total`, and falls back to the second line when every one does |
| CsvParser.SummaryRowSkipsAggregates | src/services/csv_parser.py:177-180 | when some line after the header does not start with `Total`, the chosen row does not either and comes no later than it |
| CsvParser.ParseSummary | src/services/csv_parser.py:172-197 | fewer than two lines fail as an invalid summary section. Otherwise each field is the mapping's value or `''`. The payment count is 0 when absent and the integer its text reads as when present; a non-integer one fails. The net amount is present exactly when its column is |
| CsvParser.TransactionOf | src/services/csv_parser.py:227-237 | every known column shows the mapping's value or `''`; message and reference are None exactly when absent |
| CsvParser.ParseRows | src/services/csv_parser.py:218-238 | one transaction per data line, in order, each from that line's `;` fields under the header |
| CsvParser.ParseTransactions | src/services/csv_parser.py:212-240 | no lines give no transactions; otherwise one transaction per line after the header, in order |
| CsvParser.ParsedCellMatchesColumn | src/services/csv_parser.py:222-234 | a known column shows the stripped cell at its header name's last position within the row's reach |
| CsvParser.AbsentColumnIsEmpty | src/services/csv_parser.py:227-236 | a known column whose name the header does not give within the row's reach shows `''`, and a missing message or reference is None |
| CsvParser.ParseLines | src/services/csv_parser.py:60-72 | a report is made exactly when metadata and summary parse, from the three sections' parses. A metadata failure is reported first; with the metadata parsed, the failure is the summary's own error |
| CsvParser.ParseFile | src/services/csv_parser.py:80-85 | a missing file stays a file-not-found failure. A parse failure becomes the value error `Failed to parse CSV file: ` followed by that failure's text; a read or decoding failure becomes the same prefix followed by its reason. Parsing succeeds exactly on readable text whose stripped non-blank lines parse |
| CsvParser.Describe | src/services/csv_parser.py:85 | `str(e)` of the missing summary section is `Invalid summary section`; that of an `int()` failure is `invalid literal for int() with base 10: ` followed by the literal's `repr`, cut to 200 characters; a read failure is its reason |
| CsvParser.DescribeApostrophe | src/services/csv_parser.py:159 | a count with an apostrophe and no double quote, such as `1'000`, is shown whole in double quotes |
| CsvParser.NoSummaryMarkerFails | src/services/csv_parser.py:172-173 | without a line starting with `MARKNADSNAMN`, summary and transactions are empty and parsing fails, as an invalid summary section once the metadata parses |
| CsvParser.HasTransactionsIffDataRows | src/services/csv_parser.py:212-218 | a parsed report has transactions exactly when the transaction section has a line after its header |
| CsvParser.CleanLinesKeeps | src/services/csv_parser.py:107-110 | lines that are already clean pass through cleaning unchanged |
| CsvParser.PlainUnmarkedFails | src/services/csv_parser.py:113-119 | clean lines none of which starts with `MARKNADSNAMN` never parse |
| Validator.ValidateFilePath | src/services/validator.py:55-66 | the path is accepted exactly when it is non-empty, exists, and ends in `.csv` in any letter case. Otherwise the check answers with the empty, missing or wrong-extension message, in that order |
| Validator.CsvExtensionIgnoresCase | src/services/validator.py:62 | upper- or lower-casing a path never changes the extension check |
| Validator.FirstTransactionHeader | src/services/validator.py:117-121 | the first line whose first `;` field contains `DATUM`, or none |
| Validator.AnySummaryHeader | src/services/validator.py:93-96 | some line contains `MARKNADSNAMN` anywhere |
| Validator.ValidateLines | src/services/validator.py:93-127 | lines pass exactly when some line contains `MARKNADSNAMN` and the first line whose first field contains `DATUM` is not the last. A missing summary marker is reported first, then a missing transaction marker, then a transaction header on the last line as no transactions |
| Validator.ValidateFileContent | src/services/validator.py:82-137 | blank text is empty before any other check, an undecodable file has the encoding message, other read failures carry their reason, and any other text gets exactly the verdict of its stripped non-blank lines |
| Validator.AcceptedHasTwoLines | src/services/validator.py:123-127 | accepted content has at least two non-blank lines |
| Validator.MissingColumns | src/services/validator.py:153-156 | the missing columns are exactly the required ones the header lacks by exact match; a single required column is missing exactly when the header lacks it |
| Validator.MissingColumnsAppend | src/services/validator.py:153-156 | the missing columns keep the required order: those of a concatenation are those of the first part followed by those of the second |
| Validator.ValidateRequiredColumns | src/services/validator.py:153-165 | valid exactly when no required column is missing; otherwise the message lists the missing ones joined by `, ` |
| Validator.RequiredColumnsMonotone | src/services/validator.py:153-165 | adding columns to a header never makes it fail |
| Validator.ValidateComplete | src/services/validator.py:183-194 | a failing path check is the answer and skips the content check; otherwise the content check answers; valid exactly when both are |
| Layout.ColumnMax | src/services/pdf_generator.py:227 | the longest cell of a column bounds every cell of that column and is reached by one |
| Layout.MaxLengths | src/services/pdf_generator.py:226-229 | one maximum per column, in column order |
| Layout.EqualWidths | src/services/pdf_generator.py:174-175 | `n` columns of equal width, each an `n`-th of the total |
| Layout.EqualWidthsSum | src/services/pdf_generator.py:174-175 | equal widths fill the table exactly |
| Layout.ProportionalWidths | src/services/pdf_generator.py:230-235 | no columns give no widths; a zero total length with columns is a division error; otherwise one width per column |
| Layout.ProportionalWidthsSum | src/services/pdf_generator.py:230-235 | proportional widths fill the table exactly |
| Layout.WidthsAreScaled | src/services/pdf_generator.py:232-235 | each proportional width is its length times the table width divided by the total length |
| Layout.ScaleShare | src/services/pdf_generator.py:232-235 | each column's width is to the table width as its length is to the total length |
| Layout.ProportionalWidthsOrdered | src/services/pdf_generator.py:232-235 | widths are non-negative, and a longer column is never narrower |
| PdfGenerator.SetPageFormat | src/services/pdf_generator.py:66-71 | `A4` and `LETTER` in any letter case select their page size, any other value keeps the current one, and the orientation is stored lower-cased |
| PdfGenerator.SetPageFormatIgnoresCase | src/services/pdf_generator.py:66-71 | the letter case of the page size and of the orientation never changes the result |
| PdfGenerator.SetFontSize | src/services/pdf_generator.py:81 | the font size is replaced and the page format kept |
| PdfGenerator.GeneratedTablesFitPage | src/services/pdf_generator.py:111-117 | in every generated document, each of the two tables plus the document's left and right margins fits within the width of its page |
| PdfGenerator.SummaryRow | src/services/pdf_generator.py:160-169 | the summary row is the date-range display, the payment count as its `str()` text (which reads back as the count), and the total amount |
| PdfGenerator.SummarySection | src/services/pdf_generator.py:153-189 | the `Översikt` heading, a 6-point spacer, a table of the fixed header over the summary row with no repeated rows, in three equal columns filling 515 points, then a 20-point spacer |
| PdfGenerator.TransactionRows | src/services/pdf_generator.py:219-223 | the column names, then one projected row per transaction in order: one row more than there are transactions, each as wide as the columns |
| PdfGenerator.ColumnLengths | src/services/pdf_generator.py:226-229 | each column's length is at least its name's length, bounds every cell of the column, and is reached by one |
| PdfGenerator.TransactionsSection | src/services/pdf_generator.py:212-248 | exactly three blocks: the `Transaktioner` heading, a 6-point spacer, and the table with proportional widths. It fails, always with a division by zero, exactly when columns exist and all their cells are empty |
| PdfGenerator.GeneratePdf | src/services/pdf_generator.py:102-130 | a report without transactions is refused before anything is built. A report with transactions is written exactly when its transactions section can be laid out. The document goes to the given path with the configured page and font size and the fixed margins, and holds the summary section, then the transactions section for the chosen columns. When that section cannot be laid out, the failure is its division by zero |
| PdfGenerator.DefaultColumnsUsed | src/services/pdf_generator.py:107-108 | giving no columns is giving the seven default columns |
| PdfGenerator.OrientationUnused | src/services/pdf_generator.py:111-118 | the stored orientation never affects the document |
| PdfGenerator.NamedColumnsDivide | src/services/pdf_generator.py:226-230 | a column with a non-empty name makes the total length positive |
| PdfGenerator.DefaultGenerationSucceeds | src/services/pdf_generator.py:102-108 | with the default columns a document is built exactly when the report has transactions |
| PdfGenerator.GeneratedTransactionTable | src/services/pdf_generator.py:215-238 | a generated document's transaction table has the projected rows, a repeated header, and non-negative widths that fill 515 points |
| PdfGenerator.TransactionTable | src/services/pdf_generator.py:215-238 | the transactions section's table has the projected rows, a repeated header, and non-negative widths that fill the table |
| LegacyConverter.CleanAll | src/utils/csv_to_pdf.py:16-17 | every line is cleaned and kept, even one that cleans to nothing |
| LegacyConverter.StepCommutes | src/utils/csv_to_pdf.py:16-30 | one legacy step agrees with one service step, read through the legacy layout |
| LegacyConverter.LegacyRunIsSplitAtMarkers | src/utils/csv_to_pdf.py:16-30 | the legacy loop ends where the reference split of its cleaned lines ends, read through the legacy layout |
| LegacyConverter.MarkerSplitLegacyShape | src/utils/csv_to_pdf.py:16-30 | the legacy reading of the reference split has the legacy shape (see LegacyPartition) |
| LegacyConverter.LegacyPartition | src/utils/csv_to_pdf.py:16-30 | Every cleaned line lands in order in one list, except the transaction header. The `MARKNADSNAMN` line ends the metadata and is also the summary header. The `DATUM` header is the first such line after it and lands in no list |
| LegacyConverter.CleanAllIsCleanLines | src/utils/csv_to_pdf.py:9-17 | when no line cleans to nothing, the legacy cleaning equals the service's |
| LegacyConverter.LegacyAgreesWithService | src/utils/csv_to_pdf.py:16-30 | when no line cleans to nothing, the legacy split is the service's split read through the legacy layout |
| LegacyConverter.SearchLine | src/utils/csv_to_pdf.py:42 | the first metadata line starting with `Sök:`, or `''` exactly when there is none |
| LegacyConverter.SearchDate | src/utils/csv_to_pdf.py:43 | `N/A` when the search line has no `;`; otherwise a comma-free text with no whitespace at either end |
| LegacyConverter.SearchDateIsRangeDisplay | src/utils/csv_to_pdf.py:43 | for any search line with a `;`, the legacy search date is the service's date-range display of the line's second `;` field |
| LegacyConverter.WantedIndices | src/utils/csv_to_pdf.py:48 | exactly the positions whose name is wanted, in increasing order |
| LegacyConverter.Pick | src/utils/csv_to_pdf.py:50 | the names at the kept positions, in order |
| LegacyConverter.PickPadded | src/utils/csv_to_pdf.py:81 | the cell at each kept position, `''` past the end of a short row |
| LegacyConverter.ConvertLines | src/utils/csv_to_pdf.py:38-99 | no summary data gives just the transactions title and table. Otherwise the summary table fails exactly when the conversion does; on success the blocks are the summary title, the summary table and a 12-point spacer, then the transactions title and table |
| LegacyConverter.SummaryTableRaises | src/utils/csv_to_pdf.py:46-52 | building the summary table fails exactly when the first summary row is too short for a kept position |
| LegacyConverter.SummaryTableShape | src/utils/csv_to_pdf.py:46-59 | a built summary table's header is `SÖKDATUM` and then the kept column names in header order. Its row is the search date, then the first summary row's cells at the kept positions. The widths are equal and fill 600 points |
| LegacyConverter.LegacyTransactionWidths | src/utils/csv_to_pdf.py:84-87 | the transaction widths never divide by zero and fill 600 points whenever a column is kept |
| LegacyConverter.LegacyTransactionRows | src/utils/csv_to_pdf.py:74-82 | the kept header names, then one row per transaction line with the cell at each kept position, `''` past the end |
| Controller.LoadFile | src/controllers/main_controller.py:87-118 | A failing path or content check is reported under its own title and changes nothing. A successful parse sets report and path together and is previewed. A failed parse is reported and clears both |
| Controller.ReportDate | src/controllers/main_controller.py:130-146 | a date comes only from a non-empty range whose text before the first comma, trimmed, contains ` - `. For such a range with a first word before ` - `, the result is exactly that word read as `%Y-%m-%d`. Any other range gives none |
| Controller.ReportDateOfRange | src/controllers/main_controller.py:133-142 | a range `<date> <time> - <rest>` with no comma yields exactly its start date |
| Controller.SuggestedName | src/controllers/main_controller.py:148-152 | the suggested name is `Swish_`, ten characters reading as the report's start date (or today), and `.pdf` |
| Controller.ReportExtensionDotted | src/controllers/main_controller.py:150 | the report extension already has its dot |
| Controller.Applied | src/controllers/main_controller.py:170-174 | the generator takes the settings' font size and, when recognised, their page size |
| Controller.HandleGeneratePdf | src/controllers/main_controller.py:120-197 | Without a report: an error and nothing else. Otherwise the name is suggested, and an empty save path changes nothing. With a save path, the generator first takes the page and font settings. A written document is the generator's output, announced as saved. A failure shows the creation error with the generator's message. Report, path and settings never change |
| Controller.HandleSettingsChanged | src/controllers/main_controller.py:206 | the settings are replaced as a whole and nothing else changes |
| Controller.TransitionsKeepConsistent | src/controllers/main_controller.py:100-118 | every transition keeps the report and its path set or cleared together |
| Controller.GenerateSucceedsIffTransactions | src/controllers/main_controller.py:168-197 | with a report and a save path, a document is written exactly when the report has transactions; otherwise the refusal is reported |
| Controller.DocumentFollowsSettings | src/controllers/main_controller.py:168-180 | the written document goes to the chosen path with the settings' font size and, when recognised, their page size |
| Controller.GenerationIgnoresEarlierFormat | src/controllers/main_controller.py:170-174 | when the settings name a known page size, the generator's earlier state makes no difference to the document |
| Controller.AcceptedButUnparsed | src/controllers/main_controller.py:93-101 | a file whose summary header contains `MARKNADSNAMN` without starting with it passes the content check but fails to parse |

## Left out

- File and network I/O:
  - the file's text, whether it exists, and how reading it fails are parameters (`FileContent`, `fileExists`);
  - the parser and the validator are given the same content, where the source reads the file twice.
- The user interface:
  - windows, dialogs, focus and logging are left out;
  - the controller's effect on the window is a list of notices;
  - cancelling the save dialog is an empty save path;
  - the current date is a parameter.
- Rendering by ReportLab:
  - styles, grid lines, alignment, pagination and the page margins beyond the table width are left out;
  - the document is a list of abstract blocks.
- The legacy converter's fixed page size (`letter`) and the document build are left out; its output is the block list.
- `Text.ParseInt`: models `int()` only for an optional sign and ASCII digits. Underscores between digits and non-ASCII digits, which Python also accepts, are not modelled.
- `Dates.ParseIsoDate`: models `%Y-%m-%d` with ASCII digits only. Non-ASCII digits are not modelled; the date text never holds whitespace.
- `Text.Lower` and `Text.Upper` map ASCII letters only, so the case-insensitive `.csv` and page-size comparisons are modelled for ASCII.
- `Text.Strip` uses a fixed list of whitespace characters: the ASCII ones, the Unicode separators, and the other characters Python's `str.isspace` accepts.
- `Controller.ReportDateOfRange`: proved for ranges without a comma in the part after ` - `. A comma there is cut off before the split, and the date found is the same, but this is not stated.
- `Controller.AcceptedButUnparsed`: states only that validation passes and parsing fails. That loading such a file reports the failure and clears the report follows from `Controller.LoadFile`'s contract and is not restated.
- `PdfGenerator.SetPageFormat`: the orientation is stored but, as in the source, never used in building the document.
- The table width of 600 in `src/core/config.py` is not used by the generator (which uses 515) and is not modelled; the legacy converter's own 600 is.
- `Layout.ProportionalWidths`: the source's widths use float division; the model's are exact.
- `PdfGenerator.GeneratePdf` and `Controller.GenerateSucceedsIffTransactions`: failures of ReportLab's `build` and of writing the output file (src/controllers/main_controller.py:191-197) are not modelled. The model reaches the `Fel vid PDF-skapande` notice only through the generator's own errors, so "written exactly when the report has transactions" assumes the write succeeds.
- `Text.Repr`: escapes backslashes, the chosen quote, `\t`, `\n`, `\r` and the Latin-1 non-printables as `\xNN`. Non-printable characters above U+00FF, which Python writes as `\uNNNN` or `\UNNNNNNNN`, are kept as is.

=== FILE: controller.dfy ===
/** The application controller's state transitions: loading a file (path
    check, content check, parse), generating the document for the loaded
    report, and replacing the settings. The windows and dialogs are not
    modelled: what the user picks is a parameter, and what the window is told
    to show is a list of notices. */
module Controller {
  import opened Results
  import opened Text
  import opened Dates
  import opened FileHandler
  import opened SwishData
  import opened Validator
  import opened CsvParser
  import opened PdfGenerator

  /** The settings the sidebar edits. */
  datatype Settings = Settings(pageSize: string, orientation: string, fontSize: int)

  const DefaultSettings := Settings("A4", "Portrait", 7)

  /** The loaded report and its path, the settings, and the generator service's
      own page-format state, which lasts from one generation to the next. */
  datatype State = State(report: Option<Report>, filePath: Option<string>, settings: Settings, generator: Config)

  const InitialState := State(None, None, DefaultSettings, InitialConfig)

  /** What the window is asked to show. */
  datatype Notice =
    | ErrorShown(title: string, message: string)
    | SuccessShown(title: string, message: string)
    | PreviewShown(report: Report)
    | EmptyStateShown

  datatype LoadOutcome = LoadOutcome(state: State, notices: seq<Notice>)

  /** After a generation request: the new state, the file name suggested in the
      save dialog, the document written, and the notices. */
  datatype GenerateOutcome = GenerateOutcome(
    state: State,
    suggestedName: Option<string>,
    document: Option<Document>,
    notices: seq<Notice>)

  const InvalidFileTitle := "Ogiltig fil"
  const InvalidContentTitle := "Ogiltigt filinnehåll"
  const LoadFailedTitle := "Fel vid inläsning"
  const LoadFailedPrefix := "Kunde inte läsa CSV-filen:\n"
  const NoFileTitle := "Ingen fil"
  const NoFileMessage := "Vänligen ladda en CSV-fil först"
  const CreatedTitle := "PDF skapad"
  const CreatedPrefix := "PDF-filen har sparats:\n"
  const CreateFailedTitle := "Fel vid PDF-skapande"
  const CreateFailedPrefix := "Kunde inte skapa PDF:\n"
  const ReportBaseName := "Swish"
  const ReportExtension := ".pdf"
  const RangeSeparator := " - "

  /** The loaded report and its path are set and cleared together. */
  predicate Consistent(st: State) {
    st.report.Some? <==> st.filePath.Some?
  }

  /** `str(e)` for what parsing lets escape. */
  function FailureText(f: ParseFailure): string {
    match f
    case FileNotFound(reason) => reason
    case ValueError(message) => message
  }

  // ---------------------------------------------------------------------------
  // Loading a file

  /** `_load_file`: a path or content that fails its check is reported and
      changes nothing; a successful parse becomes the current report, with its
      path, and is previewed; a failed parse is reported and clears both.
      `fileExists` is what the file system says of the path and `content` what
      reading it gives. */
  function LoadFile(st: State, path: string, fileExists: bool, content: FileContent): (o: LoadOutcome)
    ensures ValidateFilePath(path, fileExists).Invalid? ==>
              o == LoadOutcome(st, [ErrorShown(InvalidFileTitle, ValidateFilePath(path, fileExists).message)])
    ensures ValidateFilePath(path, fileExists).Valid? && ValidateFileContent(content).Invalid? ==>
              o == LoadOutcome(st, [ErrorShown(InvalidContentTitle, ValidateFileContent(content).message)])
    ensures ValidateComplete(path, fileExists, content).Invalid? ==> o.state == st
    ensures ValidateComplete(path, fileExists, content).Valid? ==>
              && o.state.settings == st.settings && o.state.generator == st.generator
              && (o.state.report.Some? <==> ParseFile(content).Ok?)
              && (ParseFile(content).Ok? ==>
                    && o.state.report == Some(ParseFile(content).value)
                    && o.state.filePath == Some(path)
                    && o.notices == [PreviewShown(ParseFile(content).value)])
              && (ParseFile(content).Err? ==>
                    && o.state.filePath == None
                    && o.notices == [ErrorShown(LoadFailedTitle, LoadFailedPrefix + FailureText(ParseFile(content).error)), EmptyStateShown])
  {
    match ValidateFilePath(path, fileExists)
    case Invalid(message) => LoadOutcome(st, [ErrorShown(InvalidFileTitle, message)])
    case Valid =>
      match ValidateFileContent(content)
      case Invalid(message) => LoadOutcome(st, [ErrorShown(InvalidContentTitle, message)])
      case Valid =>
        match ParseFile(content)
        case Ok(report) => LoadOutcome(st.(report := Some(report), filePath := Some(path)), [PreviewShown(report)])
        case Err(failure) =>
          LoadOutcome(st.(report := None, filePath := None),
                      [ErrorShown(LoadFailedTitle, LoadFailedPrefix + FailureText(failure)), EmptyStateShown])
  }

  // ---------------------------------------------------------------------------
  // The date in the suggested file name

  /** The start date of a search range `<date> <time> - <date> <time>, …`: the
      text before the first comma, trimmed, must contain ` - `; the text before
      that, trimmed, must have a first word that reads as `%Y-%m-%d`. Every
      failure gives None, and the caller falls back to today. */
  function ReportDate(range: string): (r: Option<CalendarDate>)
    ensures r.Some? ==> range != "" && Contains(Strip(FirstField(range, ',')), RangeSeparator)
    ensures r.Some? ==>
              var start := Strip(BeforeSub(Strip(FirstField(range, ',')), RangeSeparator));
              FirstWord(start).Some? && ParseIsoDate(FirstWord(start).value) == r
    ensures var part := Strip(FirstField(range, ','));
            var start := Strip(BeforeSub(part, RangeSeparator));
            range != "" && Contains(part, RangeSeparator) && FirstWord(start).Some? ==>
              r == ParseIsoDate(FirstWord(start).value)
  {
    if range == "" then None
    else
      var part := Strip(FirstField(range, ','));
      if !Contains(part, RangeSeparator) then None
      else
        var start := Strip(BeforeSub(part, RangeSeparator));
        match FirstWord(start)
        case None => None
        case Some(word) => ParseIsoDate(word)
  }

  /** A stamp as `FormatIsoDate` writes it: ten digits and dashes. */
  predicate IsStamp(stamp: string) {
    |stamp| == 10 && forall i :: 0 <= i < 10 ==> IsDigit(stamp[i]) || stamp[i] == '-'
  }

  /** A formatted date holds only digits and dashes. */
  lemma StampChars(d: CalendarDate)
    ensures IsStamp(FormatIsoDate(d))
  {
    YearDigits(d.year);
    TwoDigits(d.month);
    TwoDigits(d.day);
    var y := ZeroPad(d.year, 4);
    var m := ZeroPad(d.month, 2);
    var dd := ZeroPad(d.day, 2);
    var s := FormatIsoDate(d);
    assert s == y + "-" + m + "-" + dd;
    forall i | 0 <= i < |s| ensures IsDigit(s[i]) || s[i] == '-' {
      if i < 4 {
        assert s[i] == y[i];
      } else if 5 <= i < 7 {
        assert s[i] == m[i - 5];
      } else if 8 <= i {
        assert s[i] == dd[i - 8];
      }
    }
  }

  /** A time field as the export writes it, `00:00:00`: no whitespace, comma
      or dash. */
  predicate IsTimeField(time: string) {
    time != "" && forall i :: 0 <= i < |time| ==> !IsSpace(time[i]) && time[i] != ',' && time[i] != '-'
  }

  /** No ` - ` starts inside `<stamp> <time>`. */
  lemma NoSeparatorBefore(stamp: string, time: string, rest: string, k: nat)
    requires IsStamp(stamp) && IsTimeField(time)
    requires k < |stamp + " " + time|
    ensures !OccursAt(stamp + " " + time + RangeSeparator + rest, RangeSeparator, k)
  {
    var s := stamp + " " + time + RangeSeparator + rest;
    var w := s[k..k + 3];
    assert w[0] == s[k] && w[1] == s[k + 1];
    if k < 10 {
      assert s[k] == stamp[k] != ' ';
    } else if k == 10 {
      assert s[k + 1] == time[0] != '-';
    } else {
      assert s[k] == time[k - 11] && !IsSpace(time[k - 11]);
    }
  }

  /** The first ` - ` in `<stamp> <time> - <rest>` is the one after the time. */
  lemma FirstSeparator(stamp: string, time: string, rest: string)
    requires IsStamp(stamp) && IsTimeField(time)
    ensures BeforeSub(stamp + " " + time + RangeSeparator + rest, RangeSeparator) == stamp + " " + time
  {
    var prefix := stamp + " " + time;
    forall k: nat | k < |prefix| ensures !OccursAt(prefix + RangeSeparator + rest, RangeSeparator, k) {
      NoSeparatorBefore(stamp, time, rest, k);
    }
    BeforeFirst(prefix, RangeSeparator, rest);
  }

  /** The first word of `<stamp> <time>` is the stamp. */
  lemma FirstWordIsStamp(stamp: string, time: string)
    requires IsStamp(stamp) && IsTimeField(time)
    ensures FirstWord(stamp + " " + time) == Some(stamp)
  {
    var s := stamp + " " + time;
    var gap := " " + time;
    StampHasNoSpace(stamp);
    assert s == stamp + gap;
    assert s[0] == stamp[0];
    assert TrimStart(s) == s;
    TakeWordBeforeSpace(stamp, gap);
  }

  /** A stamp's digits and dashes are not whitespace. */
  lemma StampHasNoSpace(stamp: string)
    requires IsStamp(stamp)
    ensures forall i :: 0 <= i < |stamp| ==> !IsSpace(stamp[i])
  {
  }

  /** A range written `<stamp> <time> - <rest>` has no comma when `rest` has none. */
  lemma NoCommaInRange(stamp: string, time: string, rest: string)
    requires IsStamp(stamp) && IsTimeField(time) && ',' !in rest
    ensures ',' !in stamp + " " + time + RangeSeparator + rest
  {
    assert forall i :: 0 <= i < |stamp| ==> stamp[i] != ',';
    assert forall i :: 0 <= i < |time| ==> time[i] != ',';
  }

  /** The start date of a range written `<date> <time> - <end>`, with no comma
      in it, is read back exactly. */
  lemma ReportDateOfRange(d: CalendarDate, time: string, rest: string)
    requires IsTimeField(time)
    requires rest != "" && ',' !in rest && !IsSpace(rest[|rest| - 1])
    ensures ReportDate(FormatIsoDate(d) + " " + time + RangeSeparator + rest) == Some(d)
  {
    var stamp := FormatIsoDate(d);
    StampChars(d);
    var prefix := stamp + " " + time;
    var range := prefix + RangeSeparator + rest;
    NoCommaInRange(stamp, time, rest);
    RangeIsTrimmed(stamp, time, rest);
    assert FirstField(range, ',') == range;
    ContainsOccurs(range, RangeSeparator, |prefix|) by {
      assert range[|prefix|..|prefix| + 3] == RangeSeparator;
    }
    FirstSeparator(stamp, time, rest);
    assert prefix[0] == stamp[0] && prefix[|prefix| - 1] == time[|time| - 1];
    StripTrimmed(prefix);
    FirstWordIsStamp(stamp, time);
    ParseFormatIsoDate(d);
  }

  lemma RangeIsTrimmed(stamp: string, time: string, rest: string)
    requires IsStamp(stamp) && rest != "" && !IsSpace(rest[|rest| - 1])
    ensures Strip(stamp + " " + time + RangeSeparator + rest) == stamp + " " + time + RangeSeparator + rest
  {
    var range := stamp + " " + time + RangeSeparator + rest;
    assert range[0] == stamp[0] && range[|range| - 1] == rest[|rest| - 1];
    StripTrimmed(range);
  }

  // ---------------------------------------------------------------------------
  // Generating the document

  /** The file name the save dialog suggests: `Swish_<date>.pdf`, with the
      report's start date, or `today` when there is none. */
  function SuggestedName(report: Report, today: CalendarDate): (name: string)
    ensures StartsWith(name, ReportBaseName + "_") && EndsWith(name, DottedExtension(ReportExtension))
    ensures |name| == |ReportBaseName| + 11 + |DottedExtension(ReportExtension)|
    ensures ParseIsoDate(name[|ReportBaseName| + 1..|ReportBaseName| + 11]) == Some(ReportDate(report.metadata.searchDateRange).GetOr(today))
  {
    GenerateFilename(ReportBaseName, ReportExtension, ReportDate(report.metadata.searchDateRange), today)
  }

  /** The report extension already has its dot, so names end in `.pdf`. */
  lemma ReportExtensionDotted()
    ensures DottedExtension(ReportExtension) == ReportExtension
  {
    assert StartsWith(ReportExtension, ".") by {
      assert ReportExtension[..1] == ".";
    }
  }

  /** The generator's configuration once the current settings are applied. */
  function Applied(st: State): (cfg: Config)
    ensures cfg.fontSize == st.settings.fontSize
    ensures Upper(st.settings.pageSize) == "A4" ==> cfg.pageSize == A4
    ensures Upper(st.settings.pageSize) == "LETTER" ==> cfg.pageSize == Letter
  {
    SetFontSize(SetPageFormat(st.generator, st.settings.pageSize, st.settings.orientation), st.settings.fontSize)
  }

  /** `handle_generate_pdf`: without a report, an error and nothing else.
      Otherwise the file name `Swish_<date>.pdf` is suggested, with the
      report's start date or `today`; an empty `savePath` is the user
      cancelling; else the settings are applied to the generator and the
      document is written to `savePath`, or the failure reported. */
  function HandleGeneratePdf(st: State, today: CalendarDate, savePath: string): (o: GenerateOutcome)
    ensures st.report.None? ==> o == GenerateOutcome(st, None, None, [ErrorShown(NoFileTitle, NoFileMessage)])
    ensures st.report.Some? ==> o.suggestedName == Some(SuggestedName(st.report.value, today))
    ensures st.report.Some? && savePath == "" ==> o.state == st && o.document.None? && o.notices == []
    ensures st.report.Some? && savePath != "" ==> o.state == st.(generator := Applied(st))
    ensures st.report.Some? && savePath != "" ==>
              match GeneratePdf(st.report.value, savePath, None, Applied(st))
              case Ok(doc) => o.document == Some(doc) && o.notices == [SuccessShown(CreatedTitle, CreatedPrefix + savePath)]
              case Err(e) => o.document.None? && o.notices == [ErrorShown(CreateFailedTitle, CreateFailedPrefix + ErrorText(e))]
    ensures o.state.report == st.report && o.state.filePath == st.filePath && o.state.settings == st.settings
    ensures o.document.Some? ==>
              && st.report.Some? && savePath != ""
              && GeneratePdf(st.report.value, savePath, None, Applied(st)) == Ok(o.document.value)
              && o.notices == [SuccessShown(CreatedTitle, CreatedPrefix + savePath)]
  {
    match st.report
    case None => GenerateOutcome(st, None, None, [ErrorShown(NoFileTitle, NoFileMessage)])
    case Some(report) =>
      var name := SuggestedName(report, today);
      if savePath == "" then GenerateOutcome(st, Some(name), None, [])
      else
        var cfg := Applied(st);
        var next := st.(generator := cfg);
        match GeneratePdf(report, savePath, None, cfg)
        case Ok(doc) => GenerateOutcome(next, Some(name), Some(doc), [SuccessShown(CreatedTitle, CreatedPrefix + savePath)])
        case Err(e) => GenerateOutcome(next, Some(name), None, [ErrorShown(CreateFailedTitle, CreateFailedPrefix + ErrorText(e))])
  }

  /** `handle_settings_changed`: the settings are replaced as a whole; nothing
      else changes until the next generation applies them. */
  function HandleSettingsChanged(st: State, settings: Settings): (r: State)
    ensures r.settings == settings
    ensures r.report == st.report && r.filePath == st.filePath && r.generator == st.generator
  {
    st.(settings := settings)
  }

  // ---------------------------------------------------------------------------
  // Properties of the transitions

  /** Every transition keeps the report and its path set or cleared together. */
  lemma TransitionsKeepConsistent(st: State, path: string, fileExists: bool, content: FileContent,
                                  today: CalendarDate, savePath: string, settings: Settings)
    requires Consistent(st)
    ensures Consistent(LoadFile(st, path, fileExists, content).state)
    ensures Consistent(HandleGeneratePdf(st, today, savePath).state)
    ensures Consistent(HandleSettingsChanged(st, settings))
  {
  }

  /** With a report loaded and a place to save it, a document is written
      exactly when the report has transactions; otherwise the generator's
      refusal is reported. */
  lemma GenerateSucceedsIffTransactions(st: State, today: CalendarDate, savePath: string)
    requires st.report.Some? && savePath != ""
    ensures HandleGeneratePdf(st, today, savePath).document.Some? <==> HasTransactions(st.report.value)
    ensures !HasTransactions(st.report.value) ==>
              HandleGeneratePdf(st, today, savePath).notices ==
                [ErrorShown(CreateFailedTitle, CreateFailedPrefix + ErrorText(NoTransactions))]
  {
    DefaultGenerationSucceeds(st.report.value, savePath, Applied(st));
  }

  /** The written document follows the current settings: their font size and,
      when recognised, their page size. */
  lemma DocumentFollowsSettings(st: State, today: CalendarDate, savePath: string)
    requires HandleGeneratePdf(st, today, savePath).document.Some?
    ensures var doc := HandleGeneratePdf(st, today, savePath).document.value;
            && doc.outputPath == savePath
            && doc.fontSize == st.settings.fontSize
            && (Upper(st.settings.pageSize) == "A4" ==> doc.pageSize == A4)
            && (Upper(st.settings.pageSize) == "LETTER" ==> doc.pageSize == Letter)
  {
  }

  /** Settings are applied afresh before each generation: when they name a
      known page size, the earlier generator state makes no difference. */
  lemma GenerationIgnoresEarlierFormat(st: State, earlier: Config, today: CalendarDate, savePath: string)
    requires Upper(st.settings.pageSize) == "A4" || Upper(st.settings.pageSize) == "LETTER"
    ensures HandleGeneratePdf(st.(generator := earlier), today, savePath).document ==
            HandleGeneratePdf(st, today, savePath).document
  {
    assert Applied(st.(generator := earlier)) == Applied(st);
  }

  /** A text the validator accepts can still fail to parse: a summary header
      that contains `MARKNADSNAMN` without starting with it passes the content
      check, which looks for the word anywhere, but gives the parser no
      summary section. By `LoadFile`'s contract, loading such a file reports
      the failure and clears the current report. */
  lemma AcceptedButUnparsed(header: string, columns: string, row: string)
    requires PlainLine(header) && PlainLine(columns) && PlainLine(row)
    requires IsSummaryHeader(header) && !StartsWith(header, SummaryMarker)
    requires IsTransactionHeader(columns) && !StartsWith(columns, SummaryMarker) && !StartsWith(row, SummaryMarker)
    ensures var text := header + "\n" + columns + "\n" + row;
            && ValidateFileContent(Text(text)).Valid?
            && ParseFile(Text(text)).Err?
  {
    var text := header + "\n" + columns + "\n" + row;
    ThreeLines(header, columns, row);
    AcceptedThree(header, columns, row);
    assert !AllSpace(text) by {
      assert text[0] == header[0];
    }
    UnmarkedThreeFail(header, columns, row);
  }

  lemma AcceptedThree(header: string, columns: string, row: string)
    requires IsSummaryHeader(header) && IsTransactionHeader(columns)
    ensures ValidateLines([header, columns, row]).Valid?
  {
    var lines := [header, columns, row];
    assert IsSummaryHeader(lines[0]);
    if !IsTransactionHeader(lines[0]) {
      assert IsTransactionHeader(lines[1]);
    }
  }
}

=== FILE: csv_parser.dfy ===
/** The parsing service: cleans the export's lines, splits them into the
    metadata, summary and transaction sections with a three-state machine, and
    builds the typed report from the three line groups. */
module CsvParser {
  import opened Results
  import opened Text
  import opened SwishData
  import opened FileHandler
  import opened Dicts

  /** The prefix that opens the summary section (its header line). */
  const SummaryMarker := "MARKNADSNAMN"
  /** The prefix that opens the transaction section (its header line). */
  const TransactionMarker := "DATUM"
  /** The prefix of an aggregate summary row. */
  const AggregatePrefix := "Total"
  const FailurePrefix := "Failed to parse CSV file: "

  /** What parsing raises before the error wrapping. */
  datatype ParseError =
    | InvalidSummarySection
    | InvalidInteger(literal: string)
    | ReadFailed(reason: string)

  /** What `parse_file` lets escape: FileNotFoundError re-raised as is, every
      other error wrapped in one ValueError. */
  datatype ParseFailure = FileNotFound(reason: string) | ValueError(message: string)

  /** `int()`'s message shows at most this many characters of the literal's `repr`. */
  const ReprLimit := 200

  /** `str(e)` for the errors parsing raises: `int()` quotes the bad literal
      with `repr`, cut to `ReprLimit` characters. */
  function Describe(e: ParseError): (r: string)
    ensures e.InvalidSummarySection? ==> r == "Invalid summary section"
    ensures e.InvalidInteger? ==>
              var q := Repr(e.literal);
              && StartsWith(r, InvalidLiteralPrefix)
              && r[|InvalidLiteralPrefix|..] == (if |q| <= ReprLimit then q else q[..ReprLimit])
    ensures e.ReadFailed? ==> r == e.reason
  {
    match e
    case InvalidSummarySection => "Invalid summary section"
    case InvalidInteger(t) =>
      var q := Repr(t);
      InvalidLiteralPrefix + (if |q| <= ReprLimit then q else q[..ReprLimit])
    case ReadFailed(reason) => reason
  }

  const InvalidLiteralPrefix := "invalid literal for int() with base 10: "

  /** A literal with an apostrophe and nothing else to escape, such as a
      count written `1'000`, is shown whole in double quotes. */
  lemma DescribeApostrophe(t: string)
    requires '\'' in t && '"' !in t && |t| + 2 <= ReprLimit
    requires forall i :: 0 <= i < |t| ==> !NeedsEscape(t[i], '"')
    ensures Describe(InvalidInteger(t)) == InvalidLiteralPrefix + ("\"" + t + "\"")
  {
    var q := Repr(t);
    assert q[0] == '"';
    assert q == ['"'] + t + ['"'];
    assert |q| <= ReprLimit;
  }

  // ---------------------------------------------------------------------------
  // Section splitter

  /** A line with every `"` deleted and surrounding whitespace removed. */
  function Clean(line: string): (r: string)
    ensures '"' !in r
    ensures r == "" || (!IsSpace(r[0]) && !IsSpace(r[|r| - 1]))
  {
    var d := RemoveChar(line, '"');
    StripOmits(d, '"');
    Strip(d)
  }

  /** The cleaned forms of the lines that are not empty once cleaned, in order:
      exactly the lines the splitter distributes. */
  function CleanLines(lines: seq<string>): (r: seq<string>)
    ensures |r| <= |lines|
    ensures forall i :: 0 <= i < |r| ==> r[i] != "" && '"' !in r[i]
  {
    if lines == [] then []
    else
      var c := Clean(lines[|lines| - 1]);
      CleanLines(lines[..|lines| - 1]) + (if c == "" then [] else [c])
  }

  /** Cleaning one more line adds its cleaned form, unless that is empty. */
  lemma CleanLinesSnoc(lines: seq<string>, x: string)
    ensures CleanLines(lines + [x]) == CleanLines(lines) + (if Clean(x) == "" then [] else [Clean(x)])
  {
    assert (lines + [x])[..|lines|] == lines;
  }

  datatype Section = MetadataSection | SummarySection | TransactionSection

  /** The splitter's state: the section it is in and the three lists so far. */
  datatype Sections = Sections(section: Section, metadata: seq<string>, summary: seq<string>, transactions: seq<string>)

  const Initial := Sections(MetadataSection, [], [], [])

  /** One iteration of the splitting loop on a line already cleaned and not empty. */
  function StepClean(acc: Sections, c: string): Sections {
    match acc.section
    case MetadataSection =>
      if StartsWith(c, SummaryMarker) then acc.(section := SummarySection, summary := acc.summary + [c])
      else acc.(metadata := acc.metadata + [c])
    case SummarySection =>
      if StartsWith(c, TransactionMarker) then acc.(section := TransactionSection, transactions := acc.transactions + [c])
      else acc.(summary := acc.summary + [c])
    case TransactionSection =>
      acc.(transactions := acc.transactions + [c])
  }

  /** One iteration of the splitting loop: lines empty once cleaned are skipped. */
  function Step(acc: Sections, line: string): Sections {
    var c := Clean(line);
    if c == "" then acc else StepClean(acc, c)
  }

  /** The splitting loop run over `lines` from the initial state. */
  function Run(lines: seq<string>): Sections {
    if lines == [] then Initial else Step(Run(lines[..|lines| - 1]), lines[|lines| - 1])
  }

  /** The index of the first line at or after `from` that starts with `p`. */
  function FirstWithPrefix(c: seq<string>, from: nat, p: string): (r: Option<nat>)
    ensures r.Some? ==> from <= r.value < |c| && StartsWith(c[r.value], p)
    ensures r.Some? ==> forall k :: from <= k < r.value ==> !StartsWith(c[k], p)
    ensures r.None? ==> forall k :: from <= k < |c| ==> !StartsWith(c[k], p)
    decreases |c| - from
  {
    if from >= |c| then None
    else if StartsWith(c[from], p) then Some(from)
    else FirstWithPrefix(c, from + 1, p)
  }

  /** The sections described by where their markers are, independently of the
      loop: metadata up to the first summary marker, summary up to the first
      transaction marker after it, the rest transactions. */
  function SplitAtMarkers(c: seq<string>): Sections {
    match FirstWithPrefix(c, 0, SummaryMarker)
    case None => Sections(MetadataSection, c, [], [])
    case Some(i) =>
      match FirstWithPrefix(c, i + 1, TransactionMarker)
      case None => Sections(SummarySection, c[..i], c[i..], [])
      case Some(j) => Sections(TransactionSection, c[..i], c[i..j], c[j..])
  }

  /** How the first match changes when one line is appended. */
  lemma {:induction false} FirstWithPrefixAppend(c: seq<string>, x: string, from: nat, p: string)
    requires from <= |c| + 1
    ensures FirstWithPrefix(c + [x], from, p) ==
      match FirstWithPrefix(c, from, p)
      case Some(k) => Some(k)
      case None => if from <= |c| && StartsWith(x, p) then Some(|c|) else None
    decreases |c| + 1 - from
  {
    var cx := c + [x];
    if from < |c| {
      assert cx[from] == c[from];
      if !StartsWith(c[from], p) {
        FirstWithPrefixAppend(c, x, from + 1, p);
      }
    } else if from == |c| {
      assert cx[from] == x;
    }
  }

  /** Feeding one more line to the machine keeps it equal to the marker-based
      split of the longer input. */
  lemma AppendToSplit(c: seq<string>, x: string)
    ensures StepClean(SplitAtMarkers(c), x) == SplitAtMarkers(c + [x])
  {
    FirstWithPrefixAppend(c, x, 0, SummaryMarker);
    match FirstWithPrefix(c, 0, SummaryMarker)
    case None => AppendBeforeSummary(c, x);
    case Some(i) => AppendAfterSummary(c, x, i);
  }

  lemma AppendBeforeSummary(c: seq<string>, x: string)
    requires FirstWithPrefix(c, 0, SummaryMarker).None?
    ensures StepClean(SplitAtMarkers(c), x) == SplitAtMarkers(c + [x])
  {
    var cx := c + [x];
    FirstWithPrefixAppend(c, x, 0, SummaryMarker);
    if StartsWith(x, SummaryMarker) {
      FirstWithPrefixAppend(c, x, |c| + 1, TransactionMarker);
      assert FirstWithPrefix(cx, |c| + 1, TransactionMarker) == None;
      assert cx[..|c|] == c && cx[|c|..] == [x];
    } else {
      assert FirstWithPrefix(cx, 0, SummaryMarker) == None;
    }
  }

  lemma AppendAfterSummary(c: seq<string>, x: string, i: nat)
    requires FirstWithPrefix(c, 0, SummaryMarker) == Some(i)
    ensures StepClean(SplitAtMarkers(c), x) == SplitAtMarkers(c + [x])
  {
    FirstWithPrefixAppend(c, x, 0, SummaryMarker);
    FirstWithPrefixAppend(c, x, i + 1, TransactionMarker);
    match FirstWithPrefix(c, i + 1, TransactionMarker)
    case None => AppendInSummary(c, x, i);
    case Some(j) => AppendInTransactions(c, x, i, j);
  }

  lemma AppendInSummary(c: seq<string>, x: string, i: nat)
    requires FirstWithPrefix(c, 0, SummaryMarker) == Some(i)
    requires FirstWithPrefix(c, i + 1, TransactionMarker).None?
    ensures StepClean(SplitAtMarkers(c), x) == SplitAtMarkers(c + [x])
  {
    FirstWithPrefixAppend(c, x, 0, SummaryMarker);
    FirstWithPrefixAppend(c, x, i + 1, TransactionMarker);
    if StartsWith(x, TransactionMarker) {
      TransactionsOpen(c, x, i);
    } else {
      SummaryGrows(c, x, i);
    }
  }

  lemma TransactionsOpen(c: seq<string>, x: string, i: nat)
    requires i < |c|
    requires FirstWithPrefix(c + [x], 0, SummaryMarker) == Some(i)
    requires FirstWithPrefix(c + [x], i + 1, TransactionMarker) == Some(|c|)
    ensures SplitAtMarkers(c + [x]) == Sections(TransactionSection, c[..i], c[i..], [x])
  {
    var cx := c + [x];
    SnocSlices(c, x, i, |c|);
    assert c[i..|c|] == c[i..];
  }

  lemma SummaryGrows(c: seq<string>, x: string, i: nat)
    requires i < |c|
    requires FirstWithPrefix(c + [x], 0, SummaryMarker) == Some(i)
    requires FirstWithPrefix(c + [x], i + 1, TransactionMarker).None?
    ensures SplitAtMarkers(c + [x]) == Sections(SummarySection, c[..i], c[i..] + [x], [])
  {
    SnocSlices(c, x, i, i);
  }

  lemma AppendInTransactions(c: seq<string>, x: string, i: nat, j: nat)
    requires FirstWithPrefix(c, 0, SummaryMarker) == Some(i)
    requires FirstWithPrefix(c, i + 1, TransactionMarker) == Some(j)
    ensures StepClean(SplitAtMarkers(c), x) == SplitAtMarkers(c + [x])
  {
    var cx := c + [x];
    FirstWithPrefixAppend(c, x, 0, SummaryMarker);
    FirstWithPrefixAppend(c, x, i + 1, TransactionMarker);
    assert FirstWithPrefix(cx, 0, SummaryMarker) == Some(i);
    assert FirstWithPrefix(cx, i + 1, TransactionMarker) == Some(j);
    var s := Sections(TransactionSection, c[..i], c[i..j], c[j..]);
    assert SplitAtMarkers(c) == s;
    SnocSlices(c, x, i, j);
    assert SplitAtMarkers(cx) == Sections(TransactionSection, cx[..i], cx[i..j], cx[j..]);
  }

  /** Slices of `c` below `j` are unchanged by appending `x`; the slice from `j` gains it. */
  lemma SnocSlices(c: seq<string>, x: string, i: nat, j: nat)
    requires i <= j <= |c|
    ensures (c + [x])[..i] == c[..i] && (c + [x])[i..j] == c[i..j] && (c + [x])[j..] == c[j..] + [x]
  {
  }

  /** The loop computes exactly the marker-based split of the cleaned lines. */
  lemma {:induction false} RunIsSplitAtMarkers(lines: seq<string>)
    ensures Run(lines) == SplitAtMarkers(CleanLines(lines))
  {
    if lines != [] {
      var init := lines[..|lines| - 1];
      var x := Clean(lines[|lines| - 1]);
      RunIsSplitAtMarkers(init);
      assert Run(lines) == Step(Run(init), lines[|lines| - 1]);
      if x != "" {
        assert CleanLines(lines) == CleanLines(init) + [x];
        AppendToSplit(CleanLines(init), x);
      } else {
        assert CleanLines(lines) == CleanLines(init);
      }
    }
  }

  /** What the splitter promises of its sections over the cleaned lines `c`:
      they partition `c` in order, each marker line opens its section, no
      metadata line is a summary marker, no summary line after the first is a
      transaction marker, and the state names the last section reached. */
  predicate MarkerShape(r: Sections, c: seq<string>) {
    && r.metadata + r.summary + r.transactions == c
    && (forall k :: 0 <= k < |r.metadata| ==> !StartsWith(r.metadata[k], SummaryMarker))
    && (r.summary == [] <==> forall k :: 0 <= k < |c| ==> !StartsWith(c[k], SummaryMarker))
    && (r.summary != [] ==> StartsWith(r.summary[0], SummaryMarker))
    && (r.summary == [] ==> r.transactions == [])
    && (forall k :: 1 <= k < |r.summary| ==> !StartsWith(r.summary[k], TransactionMarker))
    && (r.transactions != [] ==> StartsWith(r.transactions[0], TransactionMarker))
    && (r.section == MetadataSection <==> r.summary == [])
    && (r.section == TransactionSection <==> r.transactions != [])
  }

  /** The marker-based split has the splitter's shape. */
  lemma MarkerSplitShape(c: seq<string>)
    ensures MarkerShape(SplitAtMarkers(c), c)
  {
    match FirstWithPrefix(c, 0, SummaryMarker)
    case None =>
      assert c + [] + [] == c;
    case Some(i) =>
      match FirstWithPrefix(c, i + 1, TransactionMarker)
      case None => SummaryOnlyShape(c, i);
      case Some(j) => BothMarkersShape(c, i, j);
  }

  lemma SummaryOnlyShape(c: seq<string>, i: nat)
    requires FirstWithPrefix(c, 0, SummaryMarker) == Some(i)
    requires FirstWithPrefix(c, i + 1, TransactionMarker).None?
    ensures MarkerShape(Sections(SummarySection, c[..i], c[i..], []), c)
  {
    Partition(c, i);
    SliceAvoids(c, 0, i, SummaryMarker);
    SliceAvoids(c, i + 1, |c|, TransactionMarker);
    ShiftedSlice(c, i, |c|);
  }

  lemma BothMarkersShape(c: seq<string>, i: nat, j: nat)
    requires FirstWithPrefix(c, 0, SummaryMarker) == Some(i)
    requires FirstWithPrefix(c, i + 1, TransactionMarker) == Some(j)
    ensures MarkerShape(Sections(TransactionSection, c[..i], c[i..j], c[j..]), c)
  {
    Partition3(c, i, j);
    SliceAvoids(c, 0, i, SummaryMarker);
    SliceAvoids(c, i + 1, j, TransactionMarker);
    ShiftedSlice(c, i, j);
  }

  lemma Partition(c: seq<string>, i: nat)
    requires i <= |c|
    ensures c[..i] + c[i..] + [] == c
  {
  }

  lemma Partition3(c: seq<string>, i: nat, j: nat)
    requires i <= j <= |c|
    ensures c[..i] + c[i..j] + c[j..] == c
  {
  }

  /** A slice keeps what held of its lines in place. */
  lemma SliceAvoids(c: seq<string>, lo: nat, hi: nat, p: string)
    requires lo <= hi <= |c|
    requires forall k :: lo <= k < hi ==> !StartsWith(c[k], p)
    ensures forall k :: 0 <= k < hi - lo ==> !StartsWith(c[lo..hi][k], p)
  {
  }

  /** Line `k + 1` of the slice from `i` is line `i + k + 1` of the whole. */
  lemma ShiftedSlice(c: seq<string>, i: nat, j: nat)
    requires i < j <= |c|
    ensures c[i..j][0] == c[i] && c[i..] == c[i..j] + c[j..]
    ensures forall k :: 1 <= k < j - i ==> c[i..j][k] == c[i + 1..j][k - 1]
  {
  }

  /** `_split_sections`: every cleaned non-empty line lands in exactly one list,
      in source order; the summary list opens with the first line starting
      with `MARKNADSNAMN`, and the transaction list with the first line after
      it starting with `DATUM`. */
  function SplitSections(lines: seq<string>): (r: Sections)
    ensures r.metadata + r.summary + r.transactions == CleanLines(lines)
    ensures forall k :: 0 <= k < |r.metadata| ==> !StartsWith(r.metadata[k], SummaryMarker)
    ensures r.summary == [] <==> forall k :: 0 <= k < |CleanLines(lines)| ==> !StartsWith(CleanLines(lines)[k], SummaryMarker)
    ensures r.summary != [] ==> StartsWith(r.summary[0], SummaryMarker)
    ensures r.summary == [] ==> r.transactions == []
    ensures forall k :: 1 <= k < |r.summary| ==> !StartsWith(r.summary[k], TransactionMarker)
    ensures r.transactions != [] ==> StartsWith(r.transactions[0], TransactionMarker)
    ensures r.section == MetadataSection <==> r.summary == []
    ensures r.section == TransactionSection <==> r.transactions != []
  {
    RunIsSplitAtMarkers(lines);
    MarkerSplitShape(CleanLines(lines));
    Run(lines)
  }

  function Rank(s: Section): nat {
    match s
    case MetadataSection => 0
    case SummarySection => 1
    case TransactionSection => 2
  }

  /** The state only moves forward: the section after any prefix of the input
      is never later than the section after the whole input. */
  lemma {:induction false} SectionOnlyAdvances(lines: seq<string>, k: nat)
    requires k <= |lines|
    ensures Rank(Run(lines[..k]).section) <= Rank(Run(lines).section)
  {
    if k < |lines| {
      var init := lines[..|lines| - 1];
      assert init[..k] == lines[..k];
      SectionOnlyAdvances(init, k);
      StepAdvances(Run(init), lines[|lines| - 1]);
    } else {
      assert lines[..k] == lines;
    }
  }

  /** One iteration never moves the state back. */
  lemma StepAdvances(acc: Sections, line: string)
    ensures Rank(acc.section) <= Rank(Step(acc, line).section)
  {
  }

  // ---------------------------------------------------------------------------
  // Metadata parser

  /** A metadata line that holds a key/value pair. */
  predicate IsEntry(line: string) {
    ';' in line
  }

  /** The text before the first `;`, stripped, trailing `:` removed. */
  function EntryKey(line: string): string
    requires IsEntry(line)
  {
    RStripChar(Strip(FirstField(line, ';')), ':')
  }

  /** The text after the first `;`, stripped. */
  function EntryValue(line: string): string
    requires IsEntry(line)
  {
    Strip(line[IndexOf(line, ';') + 1..])
  }

  /** The key/value pair a metadata line contributes, if any. */
  function EntryOf(line: string): Option<(string, string)> {
    if IsEntry(line) then Some((EntryKey(line), EntryValue(line))) else None
  }

  /** The metadata dictionary: one key per line holding `;`, other lines
      ignored, and a later line with the same key overriding an earlier one. */
  function MetadataEntries(lines: seq<string>): (m: map<string, string>)
    ensures forall k :: k in m <==> exists i :: 0 <= i < |lines| && EntryOf(lines[i]).Some? && EntryOf(lines[i]).value.0 == k
    ensures forall i :: 0 <= i < |lines| && EntryOf(lines[i]).Some? && IsLastFor(lines, EntryOf, i) ==>
              m[EntryOf(lines[i]).value.0] == EntryOf(lines[i]).value.1
  {
    DictOf(lines, EntryOf)
  }

  /** `dict.get(key, '')`. */
  function GetOr(m: map<string, string>, key: string, default: string): (r: string)
    ensures key in m ==> r == m[key]
    ensures key !in m ==> r == default
  {
    if key in m then m[key] else default
  }

  /** `int(m.get(key, 0))`: 0 when absent, the parsed value when present, an
      error naming the text when that is not an integer. */
  function IntField(m: map<string, string>, key: string): (r: Result<int, ParseError>)
    ensures key !in m ==> r == Ok(0)
    ensures key in m ==> (r.Err? <==> ParseInt(m[key]).None?)
    ensures key in m && r.Ok? ==> Some(r.value) == ParseInt(m[key])
    ensures r.Err? ==> r.error == InvalidInteger(m[key])
  {
    if key !in m then Ok(0)
    else
      match ParseInt(m[key])
      case Some(n) => Ok(n)
      case None => Err(InvalidInteger(m[key]))
  }

  /** `_parse_metadata`. */
  function ParseMetadata(lines: seq<string>): (r: Result<Metadata, ParseError>)
    ensures var m := MetadataEntries(lines);
            && (r.Err? <==> "Antal resultat" in m && ParseInt(m["Antal resultat"]).None?)
            && (r.Ok? ==> && r.value.createdBy == GetOr(m, "Skapad av", "")
                          && r.value.date == GetOr(m, "Datum", "")
                          && r.value.searchCriteria == GetOr(m, "Sökbegrepp", "")
                          && r.value.searchDateRange == GetOr(m, "Sök", "")
                          && r.value.swishNumber == GetOr(m, "Swish-nummer", "")
                          && ("Antal resultat" !in m ==> r.value.resultCount == 0)
                          && ("Antal resultat" in m ==> ParseInt(m["Antal resultat"]) == Some(r.value.resultCount)))
  {
    var m := MetadataEntries(lines);
    var count :- IntField(m, "Antal resultat");
    Ok(Metadata(
      GetOr(m, "Skapad av", ""),
      GetOr(m, "Datum", ""),
      GetOr(m, "Sökbegrepp", ""),
      GetOr(m, "Sök", ""),
      GetOr(m, "Swish-nummer", ""),
      count))
  }

  // ---------------------------------------------------------------------------
  // Field mapper

  function Min(a: nat, b: nat): nat {
    if a <= b then a else b
  }

  /** Python's `zip`: pairs up to the shorter length. */
  function Zip(a: seq<string>, b: seq<string>): (r: seq<(string, string)>)
    ensures |r| == Min(|a|, |b|)
    ensures forall i :: 0 <= i < |r| ==> r[i] == (a[i], b[i])
  {
    if a == [] || b == [] then [] else [(a[0], b[0])] + Zip(a[1..], b[1..])
  }

  /** A header cell and a row cell as a stripped key/value pair. */
  function StrippedPair(p: (string, string)): Option<(string, string)> {
    Some((Strip(p.0), Strip(p.1)))
  }

  /** The header→value mapping shared by the summary and transaction parsers:
      exactly the first `min(|header|, |row|)` positions, trimmed keys to
      trimmed values, a later duplicate header winning. */
  function FieldMap(header: seq<string>, row: seq<string>): (m: map<string, string>)
    ensures forall k :: k in m <==> exists i :: 0 <= i < |header| && i < |row| && Strip(header[i]) == k
    ensures forall i :: (0 <= i < |header| && i < |row| &&
              (forall j :: i < j < Min(|header|, |row|) ==> Strip(header[j]) != Strip(header[i]))) ==>
              m[Strip(header[i])] == Strip(row[i])
  {
    FieldMapKeysAssigned(header, row);
    FieldMapKeysPresent(header, row);
    FieldMapLastWins(header, row);
    DictOf(Zip(header, row), StrippedPair)
  }

  lemma FieldMapKeysAssigned(header: seq<string>, row: seq<string>)
    ensures forall k :: k in DictOf(Zip(header, row), StrippedPair) ==>
              exists i :: 0 <= i < |header| && i < |row| && Strip(header[i]) == k
  {
    var z := Zip(header, row);
    forall k | k in DictOf(z, StrippedPair)
      ensures exists i :: 0 <= i < |header| && i < |row| && Strip(header[i]) == k
    {
      var i :| 0 <= i < |z| && StrippedPair(z[i]).Some? && StrippedPair(z[i]).value.0 == k;
      assert i < Min(|header|, |row|);
      assert z[i] == (header[i], row[i]);
      assert Strip(header[i]) == k;
    }
  }

  lemma FieldMapKeysPresent(header: seq<string>, row: seq<string>)
    ensures forall i :: 0 <= i < |header| && i < |row| ==> Strip(header[i]) in DictOf(Zip(header, row), StrippedPair)
  {
    var z := Zip(header, row);
    forall i | 0 <= i < |header| && i < |row| ensures Strip(header[i]) in DictOf(z, StrippedPair) {
      assert StrippedPair(z[i]).value.0 == Strip(header[i]);
    }
  }

  lemma FieldMapLastWins(header: seq<string>, row: seq<string>)
    ensures forall i :: 0 <= i < |header| && i < |row| ==> Strip(header[i]) in DictOf(Zip(header, row), StrippedPair)
    ensures forall i :: (0 <= i < |header| && i < |row| &&
              (forall j :: i < j < Min(|header|, |row|) ==> Strip(header[j]) != Strip(header[i]))) ==>
              DictOf(Zip(header, row), StrippedPair)[Strip(header[i])] == Strip(row[i])
  {
    FieldMapKeysPresent(header, row);
    forall i | 0 <= i < |header| && i < |row| &&
               (forall j :: i < j < Min(|header|, |row|) ==> Strip(header[j]) != Strip(header[i]))
      ensures DictOf(Zip(header, row), StrippedPair)[Strip(header[i])] == Strip(row[i])
    {
      FieldMapLastWinsAt(header, row, i);
    }
  }

  lemma FieldMapLastWinsAt(header: seq<string>, row: seq<string>, i: nat)
    requires i < |header| && i < |row|
    requires forall j :: i < j < Min(|header|, |row|) ==> Strip(header[j]) != Strip(header[i])
    ensures Strip(header[i]) in DictOf(Zip(header, row), StrippedPair)
    ensures DictOf(Zip(header, row), StrippedPair)[Strip(header[i])] == Strip(row[i])
  {
    var z := Zip(header, row);
    assert z[i] == (header[i], row[i]);
    assert StrippedPair(z[i]) == Some((Strip(header[i]), Strip(row[i])));
    forall j | i < j < |z| && StrippedPair(z[j]).Some?
      ensures StrippedPair(z[j]).value.0 != StrippedPair(z[i]).value.0
    {
      assert z[j] == (header[j], row[j]);
    }
    assert IsLastFor(z, StrippedPair, i);
  }

  // ---------------------------------------------------------------------------
  // Summary parser

  /** The first line at or after `from` that is not an aggregate row. */
  function FirstNonAggregate(lines: seq<string>, from: nat): (r: Option<nat>)
    ensures r.Some? ==> from <= r.value < |lines| && !StartsWith(lines[r.value], AggregatePrefix)
    ensures r.Some? ==> forall k :: from <= k < r.value ==> StartsWith(lines[k], AggregatePrefix)
    ensures r.None? ==> forall k :: from <= k < |lines| ==> StartsWith(lines[k], AggregatePrefix)
    decreases |lines| - from
  {
    if from >= |lines| then None
    else if !StartsWith(lines[from], AggregatePrefix) then Some(from)
    else FirstNonAggregate(lines, from + 1)
  }

  /** The summary row used: the first after the header not starting with
      `Total`, or the first after the header when every one does. */
  function SummaryRowIndex(lines: seq<string>): (k: nat)
    requires |lines| >= 2
    ensures 1 <= k < |lines|
    ensures forall i :: 1 <= i < k ==> StartsWith(lines[i], AggregatePrefix)
    ensures StartsWith(lines[k], AggregatePrefix) ==>
              k == 1 && forall i :: 1 <= i < |lines| ==> StartsWith(lines[i], AggregatePrefix)
  {
    match FirstNonAggregate(lines, 1)
    case Some(k) => k
    case None => 1
  }

  /** Whenever some row after the header is a market row, a market row is
      chosen, never an aggregate. */
  lemma SummaryRowSkipsAggregates(lines: seq<string>, i: nat)
    requires |lines| >= 2 && 1 <= i < |lines| && !StartsWith(lines[i], AggregatePrefix)
    ensures !StartsWith(lines[SummaryRowIndex(lines)], AggregatePrefix)
    ensures SummaryRowIndex(lines) <= i
  {
  }

  /** The summary header zipped with the chosen row. */
  function SummaryFields(lines: seq<string>): map<string, string>
    requires |lines| >= 2
  {
    FieldMap(Split(lines[0], ';'), Split(lines[SummaryRowIndex(lines)], ';'))
  }

  /** `_parse_summary`: fewer than two lines is an invalid section; otherwise
      the fields of the chosen row, with an absent payment count read as 0, a
      present non-numeric one an error, and an absent `NETTO` unset. */
  function ParseSummary(lines: seq<string>): (r: Result<Summary, ParseError>)
    ensures |lines| < 2 ==> r == Err(InvalidSummarySection)
    ensures |lines| >= 2 ==>
      var m := SummaryFields(lines);
      && (r.Err? <==> "ANTAL SWISH-BETALNINGAR" in m && ParseInt(m["ANTAL SWISH-BETALNINGAR"]).None?)
      && (r.Ok? ==> && r.value.marketName == GetOr(m, "MARKNADSNAMN", "")
                    && r.value.swishNumber == GetOr(m, "SWISH NUMMER", "")
                    && r.value.totalAmount == GetOr(m, "TOTALT INBETALAT BELOPP", "")
                    && ("ANTAL SWISH-BETALNINGAR" !in m ==> r.value.paymentCount == 0)
                    && ("ANTAL SWISH-BETALNINGAR" in m ==> ParseInt(m["ANTAL SWISH-BETALNINGAR"]) == Some(r.value.paymentCount))
                    && (r.value.netAmount.Some? <==> "NETTO" in m)
                    && ("NETTO" in m ==> r.value.netAmount == Some(m["NETTO"])))
  {
    if |lines| < 2 then Err(InvalidSummarySection)
    else
      var m := SummaryFields(lines);
      var count :- IntField(m, "ANTAL SWISH-BETALNINGAR");
      Ok(Summary(
        GetOr(m, "MARKNADSNAMN", ""),
        GetOr(m, "SWISH NUMMER", ""),
        count,
        GetOr(m, "TOTALT INBETALAT BELOPP", ""),
        if "NETTO" in m then Some(m["NETTO"]) else None))
  }

  // ---------------------------------------------------------------------------
  // Transaction parser

  /** `m.get(key)`: None when the column is absent. */
  function Lookup(m: map<string, string>, key: string): (r: Option<string>)
    ensures r.Some? <==> key in m
    ensures key in m ==> r.value == m[key]
  {
    if key in m then Some(m[key]) else None
  }

  /** One transaction built from its mapped fields: absent text fields are
      `''`, absent message and reference are unset. */
  function TransactionOf(m: map<string, string>): (t: Transaction)
    ensures forall name :: name in KnownColumns ==> CellValue(t, name) == GetOr(m, name, "")
    ensures t.message == Lookup(m, "MEDDELANDE") && t.reference == Lookup(m, "REFERENS")
  {
    var t := Transaction(
      GetOr(m, "DATUM", ""),
      GetOr(m, "TID", ""),
      GetOr(m, "MARKNADSNAMN", ""),
      GetOr(m, "SWISH NUMMER", ""),
      GetOr(m, "NAMN", ""),
      GetOr(m, "MOBILNUMMER", ""),
      GetOr(m, "BELOPP", ""),
      Lookup(m, "MEDDELANDE"),
      Lookup(m, "REFERENS"));
    FieldsShowMap(m, t);
    t
  }

  lemma FieldsShowMap(m: map<string, string>, t: Transaction)
    requires t.date == GetOr(m, "DATUM", "") && t.time == GetOr(m, "TID", "")
    requires t.marketName == GetOr(m, "MARKNADSNAMN", "") && t.swishNumber == GetOr(m, "SWISH NUMMER", "")
    requires t.name == GetOr(m, "NAMN", "") && t.mobileNumber == GetOr(m, "MOBILNUMMER", "")
    requires t.amount == GetOr(m, "BELOPP", "")
    requires t.message == Lookup(m, "MEDDELANDE") && t.reference == Lookup(m, "REFERENS")
    ensures forall name :: name in KnownColumns ==> CellValue(t, name) == GetOr(m, name, "")
  {
    ToListKnownColumns(t);
    assert forall i :: 0 <= i < |KnownColumns| ==> CellValue(t, KnownColumns[i]) == GetOr(m, KnownColumns[i], "");
  }

  /** The transaction of one data row, given the header's cells and the row's cells. */
  function TransactionOfCells(header: seq<string>, row: seq<string>): Transaction {
    TransactionOf(FieldMap(header, row))
  }

  /** One transaction per data line, each split on `;` and mapped under the
      header's cells, in order. */
  function ParseRows(header: seq<string>, rows: seq<string>): (r: seq<Transaction>)
    ensures |r| == |rows|
    ensures forall i :: 0 <= i < |rows| ==> r[i] == TransactionOfCells(header, Split(rows[i], ';'))
  {
    seq(|rows|, i requires 0 <= i < |rows| => TransactionOfCells(header, Split(rows[i], ';')))
  }

  /** `_parse_transactions`: none for an empty section, otherwise one
      transaction per line after the header, in order. */
  function ParseTransactions(lines: seq<string>): (r: seq<Transaction>)
    ensures lines == [] ==> r == []
    ensures lines != [] ==> |r| == |lines| - 1
    ensures lines != [] ==> forall i :: 0 <= i < |r| ==>
              r[i] == TransactionOfCells(Split(lines[0], ';'), Split(lines[1..][i], ';'))
  {
    if lines == [] then [] else ParseRows(Split(lines[0], ';'), lines[1..])
  }

  /** A parsed transaction shows, under a known column, the stripped cell of
      that column in its row: the last column of that name the row reaches. */
  lemma ParsedCellMatchesColumn(header: seq<string>, row: seq<string>, name: string, j: nat)
    requires name in KnownColumns
    requires j < |header| && j < |row| && Strip(header[j]) == name
    requires forall k :: j < k < Min(|header|, |row|) ==> Strip(header[k]) != name
    ensures CellValue(TransactionOfCells(header, row), name) == Strip(row[j])
  {
  }

  /** A column the row does not reach under that name (absent from the
      header, or beyond the row's end) shows as empty text, and such a message
      or reference column is unset. */
  lemma AbsentColumnIsEmpty(header: seq<string>, row: seq<string>, name: string)
    requires name in KnownColumns
    requires forall k :: 0 <= k < |header| && k < |row| ==> Strip(header[k]) != name
    ensures CellValue(TransactionOfCells(header, row), name) == ""
    ensures name == "MEDDELANDE" ==> TransactionOfCells(header, row).message.None?
    ensures name == "REFERENS" ==> TransactionOfCells(header, row).reference.None?
  {
    AbsentKey(header, row, name);
  }

  lemma AbsentKey(header: seq<string>, row: seq<string>, name: string)
    requires forall k :: 0 <= k < |header| && k < |row| ==> Strip(header[k]) != name
    ensures name !in FieldMap(header, row)
  {
  }

  // ---------------------------------------------------------------------------
  // The whole parse

  /** Metadata first, then summary, then transactions: the first error stops it. */
  function ParseLines(lines: seq<string>): (r: Result<Report, ParseError>)
    ensures var s := SplitSections(lines);
            && (r.Ok? <==> ParseMetadata(s.metadata).Ok? && ParseSummary(s.summary).Ok?)
            && (r.Ok? ==> && r.value.metadata == ParseMetadata(s.metadata).value
                          && r.value.summary == ParseSummary(s.summary).value
                          && r.value.transactions == ParseTransactions(s.transactions))
            && (ParseMetadata(s.metadata).Err? ==> r == Err(ParseMetadata(s.metadata).error))
            && (ParseMetadata(s.metadata).Ok? && ParseSummary(s.summary).Err? ==> r == Err(ParseSummary(s.summary).error))
  {
    var s := SplitSections(lines);
    var metadata :- ParseMetadata(s.metadata);
    var summary :- ParseSummary(s.summary);
    Ok(Report(metadata, summary, ParseTransactions(s.transactions)))
  }

  /** `parse_file` from the file's content: a missing file escapes as
      FileNotFound; every other failure becomes one ValueError whose message
      starts with "Failed to parse CSV file: ". */
  function ParseFile(content: FileContent): (r: Result<Report, ParseFailure>)
    ensures content.NotFound? ==> r == Err(FileNotFound(content.reason))
    ensures !content.NotFound? && r.Err? ==> r.error.ValueError? && StartsWith(r.error.message, FailurePrefix)
    ensures r.Ok? <==> content.Text? && ParseLines(NonBlankLines(content.text)).Ok?
    ensures r.Ok? ==> r == Ok(ParseLines(NonBlankLines(content.text)).value)
    ensures content.Text? && ParseLines(NonBlankLines(content.text)).Err? ==>
              r == Err(ValueError(FailurePrefix + Describe(ParseLines(NonBlankLines(content.text)).error)))
    ensures content.Undecodable? || content.Unreadable? ==> r == Err(ValueError(FailurePrefix + content.reason))
  {
    match content
    case Text(s) =>
      (match ParseLines(NonBlankLines(s))
       case Ok(report) => Ok(report)
       case Err(e) => Err(ValueError(FailurePrefix + Describe(e))))
    case Undecodable(reason) => Err(ValueError(FailurePrefix + Describe(ReadFailed(reason))))
    case Unreadable(reason) => Err(ValueError(FailurePrefix + Describe(ReadFailed(reason))))
    case NotFound(reason) => Err(FileNotFound(reason))
  }

  // ---------------------------------------------------------------------------
  // Properties of the whole parse

  /** Without a line starting with `MARKNADSNAMN` there is no summary and no
      transaction section, and parsing fails; once the metadata parses, the
      failure is "Invalid summary section". */
  lemma NoSummaryMarkerFails(lines: seq<string>)
    requires forall k :: 0 <= k < |CleanLines(lines)| ==> !StartsWith(CleanLines(lines)[k], SummaryMarker)
    ensures SplitSections(lines).summary == [] && SplitSections(lines).transactions == []
    ensures ParseLines(lines).Err?
    ensures ParseMetadata(SplitSections(lines).metadata).Ok? ==> ParseLines(lines) == Err(InvalidSummarySection)
  {
  }

  /** A parsed report has transactions exactly when the transaction section
      holds at least one line after its header. */
  lemma HasTransactionsIffDataRows(lines: seq<string>)
    requires ParseLines(lines).Ok?
    ensures HasTransactions(ParseLines(lines).value) <==> |SplitSections(lines).transactions| >= 2
  {
  }

  /** A line that needs no cleaning: trimmed, not empty, without `"`. */
  predicate PlainLine(line: string) {
    TrimmedLine(line) && '"' !in line
  }

  /** Plain lines are their own cleaned list. */
  lemma {:induction false} CleanLinesKeeps(lines: seq<string>)
    requires forall k :: 0 <= k < |lines| ==> PlainLine(lines[k])
    ensures CleanLines(lines) == lines
  {
    if lines != [] {
      var n := |lines| - 1;
      InitPlusLast(lines);
      CleanLinesKeeps(lines[..n]);
      CleanKeeps(lines[n]);
    }
  }

  /** Plain lines none of which starts with the summary marker never parse. */
  lemma PlainUnmarkedFails(lines: seq<string>)
    requires forall k :: 0 <= k < |lines| ==> PlainLine(lines[k]) && !StartsWith(lines[k], SummaryMarker)
    ensures ParseLines(lines).Err?
  {
    CleanLinesKeeps(lines);
    NoSummaryMarkerFails(lines);
  }

  lemma UnmarkedThreeFail(a: string, b: string, c: string)
    requires PlainLine(a) && PlainLine(b) && PlainLine(c)
    requires !StartsWith(a, SummaryMarker) && !StartsWith(b, SummaryMarker) && !StartsWith(c, SummaryMarker)
    ensures ParseLines([a, b, c]).Err?
  {
    var lines := [a, b, c];
    forall k | 0 <= k < |lines| ensures PlainLine(lines[k]) && !StartsWith(lines[k], SummaryMarker) {
      if k == 0 {
        assert lines[k] == a;
      } else if k == 1 {
        assert lines[k] == b;
      } else {
        assert lines[k] == c;
      }
    }
    PlainUnmarkedFails(lines);
  }

  lemma InitPlusLast(lines: seq<string>)
    requires lines != []
    ensures lines[..|lines| - 1] + [lines[|lines| - 1]] == lines
  {
  }

  /** A line with no `"` and no surrounding whitespace is its own cleaned form. */
  lemma CleanKeeps(line: string)
    requires '"' !in line && (line == "" || (!IsSpace(line[0]) && !IsSpace(line[|line| - 1])))
    ensures Clean(line) == line
  {
    StripTrimmed(line);
  }
}

=== FILE: dates.dfy ===
/** Calendar dates as the converter reads and writes them: `strftime('%Y-%m-%d')`
    when naming the output file and `strptime(s, '%Y-%m-%d')` when taking the
    start date out of the report's search range. */
module Dates {
  import opened Results
  import opened Text

  datatype Date = Date(year: int, month: int, day: int)

  predicate IsLeapYear(y: int) {
    y % 4 == 0 && (y % 100 != 0 || y % 400 == 0)
  }

  function DaysInMonth(y: int, m: int): int
    requires 1 <= m <= 12
  {
    if m == 2 then (if IsLeapYear(y) then 29 else 28)
    else if m == 4 || m == 6 || m == 9 || m == 11 then 30
    else 31
  }

  /** The dates Python's `datetime` can hold: years 1 to 9999. */
  predicate IsValidDate(d: Date) {
    && 1 <= d.year <= 9999
    && 1 <= d.month <= 12
    && 1 <= d.day <= DaysInMonth(d.year, d.month)
  }

  type CalendarDate = d: Date | IsValidDate(d) witness Date(1, 1, 1)

  /** `n` in decimal, left-padded with zeros to at least `width` digits. */
  function ZeroPad(n: nat, width: nat): (r: string)
    ensures AllDigits(r) && DigitsValue(r) == n
    ensures |r| == if |NatToDecimal(n)| < width then width else |NatToDecimal(n)|
  {
    var digits := NatToDecimal(n);
    if |digits| < width then
      var zeros := seq(width - |digits|, _ => '0');
      LeadingZeros(zeros, digits);
      zeros + digits
    else
      digits
  }

  /** Leading zeros do not change the value of a digit string. */
  lemma {:induction false} LeadingZeros(zeros: string, digits: string)
    requires forall i :: 0 <= i < |zeros| ==> zeros[i] == '0'
    requires AllDigits(digits)
    ensures AllDigits(zeros + digits)
    ensures DigitsValue(zeros + digits) == DigitsValue(digits)
    decreases |digits|
  {
    var s := zeros + digits;
    if digits == [] {
      assert s == zeros;
      AllZeros(zeros);
    } else {
      var init := digits[..|digits| - 1];
      LeadingZeros(zeros, init);
      assert s[..|s| - 1] == zeros + init;
    }
  }

  lemma {:induction false} AllZeros(zeros: string)
    requires forall i :: 0 <= i < |zeros| ==> zeros[i] == '0'
    ensures AllDigits(zeros) && DigitsValue(zeros) == 0
  {
    if zeros != [] {
      AllZeros(zeros[..|zeros| - 1]);
    }
  }

  /** `date.strftime('%Y-%m-%d')`. */
  function FormatIsoDate(d: CalendarDate): (r: string)
    ensures |r| == 10 && r[4] == '-' && r[7] == '-'
  {
    YearDigits(d.year);
    TwoDigits(d.month);
    TwoDigits(d.day);
    ZeroPad(d.year, 4) + "-" + ZeroPad(d.month, 2) + "-" + ZeroPad(d.day, 2)
  }

  lemma TwoDigits(n: nat)
    requires n < 100
    ensures |NatToDecimal(n)| <= 2
  {
    if n >= 10 {
      assert |NatToDecimal(n / 10)| == 1;
    }
  }

  /** Zero-padded numbers hold only digits, so no `-`. */
  lemma NoDashInDigits(s: string)
    requires AllDigits(s)
    ensures '-' !in s
  {
  }

  lemma YearDigits(y: int)
    requires 1 <= y <= 9999
    ensures |NatToDecimal(y)| <= 4
  {
    if y >= 10 {
      assert |NatToDecimal(y / 10)| <= 3 by {
        if y / 10 >= 10 {
          assert |NatToDecimal(y / 100)| <= 2 by {
            if y / 100 >= 10 {
              assert |NatToDecimal(y / 1000)| == 1;
            }
          }
        }
      }
    }
  }

  /** A field of 1 or 2 ASCII digits, as `%m` and `%d` accept. */
  function ShortNumber(s: string): (r: Option<nat>)
    ensures r.Some? ==> 1 <= |s| <= 2 && AllDigits(s) && r.value == DigitsValue(s)
  {
    if 1 <= |s| <= 2 && AllDigits(s) then Some(DigitsValue(s)) else None
  }

  /** `datetime.strptime(s, '%Y-%m-%d')`: exactly four year digits, a month of
      one or two digits in 1..12, a day of one or two digits that exists in
      that month; None where Python raises ValueError. */
  function ParseIsoDate(s: string): (r: Option<CalendarDate>)
    ensures r.Some? ==> |Split(s, '-')| == 3
    ensures r.Some? ==> var p := Split(s, '-'); |p[0]| == 4 && AllDigits(p[0]) && r.value.year == DigitsValue(p[0])
    ensures r.Some? ==> var p := Split(s, '-'); ShortNumber(p[1]) == Some(r.value.month) && ShortNumber(p[2]) == Some(r.value.day)
    ensures var p := Split(s, '-');
            && |p| == 3 && |p[0]| == 4 && AllDigits(p[0])
            && ShortNumber(p[1]).Some? && ShortNumber(p[2]).Some?
            && IsValidDate(Date(DigitsValue(p[0]), ShortNumber(p[1]).value, ShortNumber(p[2]).value))
            ==> r == Some(Date(DigitsValue(p[0]), ShortNumber(p[1]).value, ShortNumber(p[2]).value))
  {
    var parts := Split(s, '-');
    if |parts| != 3 || |parts[0]| != 4 || !AllDigits(parts[0]) then None
    else
      match (ShortNumber(parts[1]), ShortNumber(parts[2]))
      case (Some(m), Some(d)) =>
        var date := Date(DigitsValue(parts[0]), m, d);
        if IsValidDate(date) then Some(date) else None
      case _ => None
  }

  /** A formatted date splits on `-` into its three zero-padded fields. */
  lemma FormattedFields(d: CalendarDate)
    ensures Split(FormatIsoDate(d), '-') == [ZeroPad(d.year, 4), ZeroPad(d.month, 2), ZeroPad(d.day, 2)]
  {
    var y := ZeroPad(d.year, 4);
    var m := ZeroPad(d.month, 2);
    var dd := ZeroPad(d.day, 2);
    NoDashInDigits(y);
    NoDashInDigits(m);
    NoDashInDigits(dd);
    SplitThree(y, m, dd, '-');
  }

  /** Reading back a formatted date gives the same date. */
  lemma ParseFormatIsoDate(d: CalendarDate)
    ensures ParseIsoDate(FormatIsoDate(d)) == Some(d)
  {
    YearDigits(d.year);
    TwoDigits(d.month);
    TwoDigits(d.day);
    FormattedFields(d);
    assert ShortNumber(ZeroPad(d.month, 2)) == Some(d.month as nat);
    assert ShortNumber(ZeroPad(d.day, 2)) == Some(d.day as nat);
  }

  /** The stamp in the documented output name `Swish_2025-12-24.pdf`. */
  lemma FormatIsoDateExample()
    ensures FormatIsoDate(Date(2025, 12, 24)) == "2025-12-24"
  {
    assert NatToDecimal(2) == "2";
    assert NatToDecimal(20) == "20";
    assert NatToDecimal(202) == "202";
    assert NatToDecimal(2025) == "2025";
    assert ZeroPad(2025, 4) == "2025";
    assert NatToDecimal(1) == "1";
    assert NatToDecimal(12) == "12";
    assert ZeroPad(12, 2) == "12";
    assert NatToDecimal(24) == "24";
    assert ZeroPad(24, 2) == "24";
  }
}

=== FILE: dicts.dfy ===
/** Python dictionaries built by assigning keys one after another, as the
    metadata parser and the field mapper both do. */
module Dicts {
  import opened Results

  /** No later item assigns the key that item `i` assigns. */
  predicate IsLastFor<T, K(==), V>(xs: seq<T>, f: T -> Option<(K, V)>, i: nat)
    requires i < |xs| && f(xs[i]).Some?
  {
    forall j :: i < j < |xs| && f(xs[j]).Some? ==> f(xs[j]).value.0 != f(xs[i]).value.0
  }

  /** The dictionary after `d[k] = v` for the pair `f` gives each item, in
      order (items giving no pair skipped): its keys are exactly the assigned
      keys, and each holds the value of its last assignment. */
  function DictOf<T, K(==,!new), V>(xs: seq<T>, f: T -> Option<(K, V)>): (m: map<K, V>)
    ensures forall k :: k in m <==> exists i :: 0 <= i < |xs| && f(xs[i]).Some? && f(xs[i]).value.0 == k
    ensures forall i :: 0 <= i < |xs| && f(xs[i]).Some? && IsLastFor(xs, f, i) ==>
              m[f(xs[i]).value.0] == f(xs[i]).value.1
  {
    if xs == [] then map[]
    else
      var n := |xs| - 1;
      var init := xs[..n];
      var m0 := DictOf(init, f);
      assert forall i :: 0 <= i < n ==> init[i] == xs[i];
      match f(xs[n])
      case None =>
        assert forall k :: k in m0 <==> exists i :: 0 <= i < |xs| && f(xs[i]).Some? && f(xs[i]).value.0 == k by {
          forall k ensures k in m0 <==> exists i :: 0 <= i < |xs| && f(xs[i]).Some? && f(xs[i]).value.0 == k {
            if exists i :: 0 <= i < |xs| && f(xs[i]).Some? && f(xs[i]).value.0 == k {
              var i :| 0 <= i < |xs| && f(xs[i]).Some? && f(xs[i]).value.0 == k;
              assert init[i] == xs[i];
            }
          }
        }
        m0
      case Some((k, v)) => m0[k := v]
  }
}

=== FILE: file_handler.dfy ===
/** The storage layer's pure part: what reading a file can give back, and the
    dated output file name. The reads themselves are not modelled. */
module FileHandler {
  import opened Results
  import opened Text
  import opened Dates

  /** The result of reading a whole file as UTF-8 text: its text, or the
      reason the read raised (a decoding error, a missing file, any other
      operating-system error). */
  datatype FileContent =
    | Text(text: string)
    | Undecodable(reason: string)
    | NotFound(reason: string)
    | Unreadable(reason: string)

  /** The extension with one leading dot: prepended when missing, never doubled. */
  function DottedExtension(extension: string): (r: string)
    ensures StartsWith(r, ".")
    ensures StartsWith(extension, ".") ==> r == extension
    ensures !StartsWith(extension, ".") ==> r == "." + extension
  {
    if StartsWith(extension, ".") then extension else "." + extension
  }

  /** Normalising an already normalised extension changes nothing. */
  lemma DottedExtensionIdempotent(extension: string)
    ensures DottedExtension(DottedExtension(extension)) == DottedExtension(extension)
  {
  }

  /** `generate_filename(base_name, extension, date)`: `<base>_<YYYY-MM-DD><.ext>`;
      with no date, `today` (the clock's reading) is used. */
  function GenerateFilename(baseName: string, extension: string, date: Option<CalendarDate>, today: CalendarDate): (r: string)
    ensures StartsWith(r, baseName + "_")
    ensures |r| == |baseName| + 11 + |DottedExtension(extension)|
    ensures ParseIsoDate(r[|baseName| + 1..|baseName| + 11]) == Some(date.GetOr(today))
    ensures EndsWith(r, DottedExtension(extension))
  {
    var d := date.GetOr(today);
    var stamp := FormatIsoDate(d);
    var head := baseName + "_";
    var r := head + stamp + DottedExtension(extension);
    ParseFormatIsoDate(d);
    ThreeParts(head, stamp, DottedExtension(extension));
    ThreeParts(baseName, "_", []);
    r
  }
}

=== FILE: layout.dfy ===
/** Column widths of the PDF tables: equal shares of the table width, or
    shares proportional to the longest text in each column. Widths are exact
    reals; the source computes them in floating point. */
module Layout {
  import opened Results

  /** Dividing by a zero total, as Python's `/` refuses to do. */
  datatype LayoutError = DivisionByZero

  function SumNat(xs: seq<nat>): nat {
    if xs == [] then 0 else xs[0] + SumNat(xs[1..])
  }

  function SumReal(xs: seq<real>): real {
    if xs == [] then 0.0 else xs[0] + SumReal(xs[1..])
  }

  /** Every row has at least `n` cells. */
  predicate HasColumns(rows: seq<seq<string>>, n: nat) {
    forall r :: 0 <= r < |rows| ==> n <= |rows[r]|
  }

  /** `max(len(row[i]) for row in rows)`: the length of the longest cell of
      column `i`, reached by some row. */
  function ColumnMax(rows: seq<seq<string>>, i: nat): (m: nat)
    requires rows != [] && forall r :: 0 <= r < |rows| ==> i < |rows[r]|
    ensures forall r :: 0 <= r < |rows| ==> |rows[r][i]| <= m
    ensures exists r :: 0 <= r < |rows| && |rows[r][i]| == m
  {
    if |rows| == 1 then |rows[0][i]|
    else
      var rest := ColumnMax(rows[1..], i);
      assert forall r :: 1 <= r < |rows| ==> rows[r] == rows[1..][r - 1];
      if |rows[0][i]| >= rest then |rows[0][i]| else rest
  }

  /** The longest cell of each of the first `n` columns, in column order. */
  function MaxLengths(rows: seq<seq<string>>, n: nat): (r: seq<nat>)
    requires rows != [] && HasColumns(rows, n)
    ensures |r| == n
    ensures forall i :: 0 <= i < n ==> r[i] == ColumnMax(rows, i)
  {
    seq(n, i requires 0 <= i < n => ColumnMax(rows, i))
  }

  /** `[total / n] * n`: `n` equal columns. */
  function EqualWidths(total: real, n: nat): (r: seq<real>)
    requires n > 0
    ensures |r| == n
    ensures forall i :: 0 <= i < n ==> r[i] * n as real == total
    ensures forall i, j :: 0 <= i < n && 0 <= j < n ==> r[i] == r[j]
  {
    seq(n, _ => total / n as real)
  }

  /** `[total * (length / sum(lengths)) for length in lengths]`: no columns
      need no division; otherwise a zero sum is a division error, and each
      column gets the share of `total` its length has of the sum. */
  function ProportionalWidths(total: real, lengths: seq<nat>): (r: Result<seq<real>, LayoutError>)
    ensures lengths == [] ==> r == Ok([])
    ensures r.Err? <==> lengths != [] && SumNat(lengths) == 0
    ensures r.Ok? ==> |r.value| == |lengths|
  {
    if lengths == [] then Ok([])
    else
      var s := SumNat(lengths);
      if s == 0 then Err(DivisionByZero)
      else Ok(seq(|lengths|, i requires 0 <= i < |lengths| => Share(total, lengths[i], s)))
  }

  /** `total * (length / sum)`. */
  function Share(total: real, length: nat, sum: nat): real
    requires sum > 0
  {
    total * (length as real / sum as real)
  }

  /** Every length multiplied by `c`. */
  function Scale(lengths: seq<nat>, c: real): (r: seq<real>)
    ensures |r| == |lengths|
    ensures forall i :: 0 <= i < |lengths| ==> r[i] == c * lengths[i] as real
  {
    if lengths == [] then [] else [c * lengths[0] as real] + Scale(lengths[1..], c)
  }

  /** Scaling every length by `c` scales the sum by `c`. */
  lemma {:induction false} SumScaled(lengths: seq<nat>, c: real)
    ensures SumReal(Scale(lengths, c)) == c * SumNat(lengths) as real
  {
    if lengths != [] {
      SumScaled(lengths[1..], c);
      assert Scale(lengths, c)[1..] == Scale(lengths[1..], c);
    }
  }

  /** The proportional widths fill the table exactly. */
  lemma ProportionalWidthsSum(total: real, lengths: seq<nat>)
    requires ProportionalWidths(total, lengths).Ok? && lengths != []
    ensures SumReal(ProportionalWidths(total, lengths).value) == total
  {
    var s := SumNat(lengths) as real;
    WidthsAreScaled(total, lengths);
    SumScaled(lengths, total / s);
  }

  /** Each proportional width is its length times `total / sum`. */
  lemma WidthsAreScaled(total: real, lengths: seq<nat>)
    requires ProportionalWidths(total, lengths).Ok? && lengths != []
    ensures ProportionalWidths(total, lengths).value == Scale(lengths, total / SumNat(lengths) as real)
  {
    var s := SumNat(lengths) as real;
    var w := ProportionalWidths(total, lengths).value;
    var scaled := Scale(lengths, total / s);
    forall i | 0 <= i < |lengths| ensures w[i] == scaled[i] {
      ProportionalWidthAt(total, lengths, i);
      ShareIsScaled(total, lengths[i], SumNat(lengths));
    }
    SamePointwise(w, scaled);
  }

  lemma ShareIsScaled(total: real, length: nat, sum: nat)
    requires sum > 0
    ensures Share(total, length, sum) == total / sum as real * length as real
  {
    ShareOfTotal(total, length as real, sum as real);
  }

  lemma SamePointwise(a: seq<real>, b: seq<real>)
    requires |a| == |b| && forall i :: 0 <= i < |a| ==> a[i] == b[i]
    ensures a == b
  {
  }

  /** One column's proportional width, read off the comprehension. */
  lemma ProportionalWidthAt(total: real, lengths: seq<nat>, i: nat)
    requires ProportionalWidths(total, lengths).Ok? && i < |lengths|
    ensures SumNat(lengths) > 0
    ensures ProportionalWidths(total, lengths).value[i] == Share(total, lengths[i], SumNat(lengths))
  {
  }

  /** Each column's scaled width is to the table width as its length is to
      the sum of the lengths; with `WidthsAreScaled` this is the share each
      proportional width gets. */
  lemma ScaleShare(lengths: seq<nat>, total: real, i: nat)
    requires SumNat(lengths) != 0 && i < |lengths|
    ensures Scale(lengths, total / SumNat(lengths) as real)[i] * SumNat(lengths) as real == total * lengths[i] as real
  {
    var s := SumNat(lengths) as real;
    var c := total / s;
    var x := Scale(lengths, c)[i];
    ScaledTimesSum(total, lengths[i] as real, s, c, x);
  }

  lemma ScaledTimesSum(a: real, b: real, s: real, c: real, x: real)
    requires s != 0.0 && c == a / s && x == c * b
    ensures x * s == a * b
  {
    assert c * s == a;
    assert (c * b) * s == (c * s) * b;
  }

  lemma ShareOfTotal(a: real, b: real, s: real)
    requires s != 0.0
    ensures a * (b / s) == (a / s) * b
  {
    var p := a / s;
    var q := b / s;
    assert a == p * s && b == q * s;
    assert a * q == p * s * q;
    assert p * b == p * q * s;
  }

  /** Proportional widths are never negative when the table width is not, and
      a longer column is never narrower. */
  lemma ProportionalWidthsOrdered(total: real, lengths: seq<nat>, i: nat, j: nat)
    requires total >= 0.0
    requires ProportionalWidths(total, lengths).Ok? && i < |lengths| && j < |lengths|
    ensures ProportionalWidths(total, lengths).value[i] >= 0.0
    ensures lengths[i] <= lengths[j] ==>
              ProportionalWidths(total, lengths).value[i] <= ProportionalWidths(total, lengths).value[j]
  {
    var s := SumNat(lengths) as real;
    var w := ProportionalWidths(total, lengths).value;
    assert w[i] == total * (lengths[i] as real / s);
    assert w[j] == total * (lengths[j] as real / s);
    DivideOrdered(0.0, lengths[i] as real, s);
    if lengths[i] <= lengths[j] {
      DivideOrdered(lengths[i] as real, lengths[j] as real, s);
      MultiplyOrdered(total, lengths[i] as real / s, lengths[j] as real / s);
    }
  }

  lemma DivideOrdered(a: real, b: real, s: real)
    requires a <= b && s > 0.0
    ensures a / s <= b / s
  {
    var r := 1.0 / s;
    assert r > 0.0;
    assert a / s == a * r && b / s == b * r;
    MultiplyOrdered(r, a, b);
  }

  lemma MultiplyOrdered(c: real, a: real, b: real)
    requires c >= 0.0 && a <= b
    ensures c * a <= c * b
  {
    assert c * b - c * a == c * (b - a);
  }

  /** Equal widths fill the table exactly. */
  lemma {:induction false} EqualWidthsSum(total: real, n: nat)
    requires n > 0
    ensures SumReal(EqualWidths(total, n)) == total
  {
    ConstantSum(total / n as real, n);
  }

  lemma {:induction false} ConstantSum(c: real, n: nat)
    ensures SumReal(seq(n, _ => c)) == c * n as real
  {
    if n > 0 {
      var s := seq(n, _ => c);
      ConstantSum(c, n - 1);
      assert s[1..] == seq(n - 1, _ => c);
      assert SumReal(s) == c + c * (n - 1) as real;
      assert c * n as real == c * (n - 1) as real + c * 1.0;
    }
  }
}

=== FILE: legacy_converter.dfy ===
/** The older stand-alone converter: a splitter of its own, which keeps lines
    that are empty once cleaned, puts the summary header line at the end of
    the metadata and sets the transaction header line apart; a summary table
    with only the search date and the two kept summary columns; and a
    transaction table of the seven known columns, 600 points wide in all. */
module LegacyConverter {
  import opened Results
  import opened Text
  import opened Layout
  import opened CsvParser
  import opened PdfGenerator
  import SwishData

  /** The legacy converter's table width, the same for both tables. */
  const LegacyTableWidth := 600.0
  const SearchPrefix := "Sök:"
  const DateColumnTitle := "SÖKDATUM"
  const NoSearchDate := "N/A"
  /** The summary columns the legacy summary table keeps. */
  const KeptSummaryColumns: seq<string> := ["ANTAL SWISH-BETALNINGAR", "TOTALT INBETALAT BELOPP"]

  // ---------------------------------------------------------------------------
  // Splitter

  datatype Phase = Meta | SummaryData | TransactionData

  /** The loop's state: the phase, the three lists, and the two header lines
      (empty until seen). */
  datatype LegacySplit = LegacySplit(
    phase: Phase,
    metadata: seq<string>,
    summaryData: seq<string>,
    transactionData: seq<string>,
    summaryHeader: string,
    transactionHeader: string)

  const Start := LegacySplit(Meta, [], [], [], "", "")

  /** One iteration on a cleaned line: in the metadata phase every line is
      kept, and the first `MARKNADSNAMN` line also becomes the summary header;
      in the summary phase the first `DATUM` line becomes the transaction
      header and joins no list. */
  function StepCleaned(acc: LegacySplit, c: string): LegacySplit {
    match acc.phase
    case Meta =>
      var kept := acc.(metadata := acc.metadata + [c]);
      if StartsWith(c, SummaryMarker) then kept.(summaryHeader := c, phase := SummaryData) else kept
    case SummaryData =>
      if StartsWith(c, TransactionMarker) then acc.(transactionHeader := c, phase := TransactionData)
      else acc.(summaryData := acc.summaryData + [c])
    case TransactionData =>
      acc.(transactionData := acc.transactionData + [c])
  }

  /** The loop over the file's stripped non-blank lines; each is cleaned as the
      service cleans it, and a line empty once cleaned is kept. */
  function LegacyRun(lines: seq<string>): LegacySplit {
    if lines == [] then Start
    else StepCleaned(LegacyRun(lines[..|lines| - 1]), Clean(lines[|lines| - 1]))
  }

  /** Every line cleaned, none dropped. */
  function CleanAll(lines: seq<string>): (r: seq<string>)
    ensures |r| == |lines| && forall i :: 0 <= i < |lines| ==> r[i] == Clean(lines[i])
  {
    seq(|lines|, i requires 0 <= i < |lines| => Clean(lines[i]))
  }

  /** Cleaning one more line appends its cleaned form. */
  lemma CleanAllSnoc(lines: seq<string>)
    requires lines != []
    ensures CleanAll(lines) == CleanAll(lines[..|lines| - 1]) + [Clean(lines[|lines| - 1])]
  {
    var n := |lines| - 1;
    var all := CleanAll(lines);
    var c := CleanAll(lines[..n]);
    forall i | 0 <= i < n ensures c[i] == all[i] {
      assert lines[..n][i] == lines[i];
    }
    PrefixAndLast(all, c);
  }

  /** A sequence agreeing with `c` on all but its last element is `c` plus that
      element. */
  lemma PrefixAndLast(all: seq<string>, c: seq<string>)
    requires |all| == |c| + 1
    requires forall i :: 0 <= i < |c| ==> c[i] == all[i]
    ensures all == c + [all[|c|]]
  {
  }

  /** A split state the service's machine can reach: a summary section that has
      begun holds its header, and so does a transaction section. */
  predicate Reachable(s: Sections) {
    && (s.section == MetadataSection <==> s.summary == [])
    && (s.section == TransactionSection <==> s.transactions != [])
  }

  /** The legacy lists read off the service's sections: the summary header
      moves to the end of the metadata, the transaction header leaves its list. */
  function FromSections(s: Sections): (r: LegacySplit)
    requires Reachable(s)
  {
    match s.section
    case MetadataSection => LegacySplit(Meta, s.metadata, [], [], "", "")
    case SummarySection => LegacySplit(SummaryData, s.metadata + [s.summary[0]], s.summary[1..], [], s.summary[0], "")
    case TransactionSection =>
      LegacySplit(TransactionData, s.metadata + [s.summary[0]], s.summary[1..], s.transactions[1..], s.summary[0], s.transactions[0])
  }

  /** One legacy step is one service step read through `FromSections`. */
  lemma StepCommutes(s: Sections, c: string)
    requires Reachable(s)
    ensures Reachable(StepClean(s, c))
    ensures StepCleaned(FromSections(s), c) == FromSections(StepClean(s, c))
  {
    match s.section
    case MetadataSection =>
    case SummarySection =>
      if !StartsWith(c, TransactionMarker) {
        assert (s.summary + [c])[0] == s.summary[0];
        assert (s.summary + [c])[1..] == s.summary[1..] + [c];
      }
    case TransactionSection =>
      assert (s.transactions + [c])[0] == s.transactions[0];
      assert (s.transactions + [c])[1..] == s.transactions[1..] + [c];
  }

  /** The legacy loop gives the marker-based split of all the cleaned lines,
      empty ones included, with the two header lines placed its own way. */
  lemma {:induction false} LegacyRunIsSplitAtMarkers(lines: seq<string>)
    ensures Reachable(SplitAtMarkers(CleanAll(lines)))
    ensures LegacyRun(lines) == FromSections(SplitAtMarkers(CleanAll(lines)))
  {
    if lines == [] {
      assert CleanAll(lines) == [];
      assert FirstWithPrefix([], 0, SummaryMarker) == None;
    } else {
      var init := lines[..|lines| - 1];
      var x := Clean(lines[|lines| - 1]);
      var c := CleanAll(init);
      LegacyRunIsSplitAtMarkers(init);
      assert LegacyRun(lines) == StepCleaned(LegacyRun(init), x);
      CleanAllSnoc(lines);
      AppendToSplit(c, x);
      StepCommutes(SplitAtMarkers(c), x);
    }
  }

  /** `convert_csv_to_pdf`'s split of the cleaned lines `c`: every line is in
      exactly one of the three lists, in order, except the transaction header
      line, which stands between the summary and the transaction lines; the
      summary header is the last metadata line and the first line starting
      with `MARKNADSNAMN`; the transaction header is the first line after it
      starting with `DATUM`. */
  predicate LegacyShape(r: LegacySplit, c: seq<string>) {
    && r.metadata + r.summaryData + (if r.phase == TransactionData then [r.transactionHeader] else []) + r.transactionData == c
    && (r.phase == Meta <==> forall k :: 0 <= k < |c| ==> !StartsWith(c[k], SummaryMarker))
    && (r.phase != Meta ==> r.metadata != [] && r.summaryHeader == r.metadata[|r.metadata| - 1] && StartsWith(r.summaryHeader, SummaryMarker))
    && (forall k :: 0 <= k < |r.metadata| - 1 ==> !StartsWith(r.metadata[k], SummaryMarker))
    && (r.phase == TransactionData ==> StartsWith(r.transactionHeader, TransactionMarker))
    && (r.phase != TransactionData ==> r.transactionData == [] && r.transactionHeader == "")
    && (forall k :: 0 <= k < |r.summaryData| ==> !StartsWith(r.summaryData[k], TransactionMarker))
  }

  /** The legacy reading of the marker-based split has the legacy shape. */
  lemma MarkerSplitLegacyShape(c: seq<string>)
    ensures Reachable(SplitAtMarkers(c))
    ensures LegacyShape(FromSections(SplitAtMarkers(c)), c)
  {
    MarkerSplitShape(c);
    var s := SplitAtMarkers(c);
    match s.section
    case MetadataSection =>
    case SummarySection =>
      SummaryPhaseShape(s, c);
    case TransactionSection =>
      TransactionPhaseShape(s, c);
  }

  lemma SummaryPhaseShape(s: Sections, c: seq<string>)
    requires s.section == SummarySection && s.summary != [] && s.transactions == []
    requires s.metadata + s.summary == c
    requires forall k :: 0 <= k < |s.metadata| ==> !StartsWith(s.metadata[k], SummaryMarker)
    requires StartsWith(s.summary[0], SummaryMarker)
    requires forall k :: 1 <= k < |s.summary| ==> !StartsWith(s.summary[k], TransactionMarker)
    ensures LegacyShape(FromSections(s), c)
  {
    var r := FromSections(s);
    assert r.metadata + r.summaryData == s.metadata + s.summary by {
      assert s.summary == [s.summary[0]] + s.summary[1..];
    }
    assert r.metadata[|r.metadata| - 1] == s.summary[0];
    assert forall k :: 0 <= k < |r.summaryData| ==> r.summaryData[k] == s.summary[k + 1];
    assert StartsWith(c[|s.metadata|], SummaryMarker);
  }

  lemma TransactionPhaseShape(s: Sections, c: seq<string>)
    requires s.section == TransactionSection && s.summary != [] && s.transactions != []
    requires s.metadata + s.summary + s.transactions == c
    requires forall k :: 0 <= k < |s.metadata| ==> !StartsWith(s.metadata[k], SummaryMarker)
    requires StartsWith(s.summary[0], SummaryMarker)
    requires forall k :: 1 <= k < |s.summary| ==> !StartsWith(s.summary[k], TransactionMarker)
    requires StartsWith(s.transactions[0], TransactionMarker)
    ensures LegacyShape(FromSections(s), c)
  {
    var r := FromSections(s);
    assert r.metadata + r.summaryData + [r.transactionHeader] + r.transactionData == s.metadata + s.summary + s.transactions by {
      assert s.summary == [s.summary[0]] + s.summary[1..];
      assert s.transactions == [s.transactions[0]] + s.transactions[1..];
    }
    assert r.metadata[|r.metadata| - 1] == s.summary[0];
    assert forall k :: 0 <= k < |r.summaryData| ==> r.summaryData[k] == s.summary[k + 1];
    assert StartsWith(c[|s.metadata|], SummaryMarker);
  }

  /** The legacy loop's split has the legacy shape over all the cleaned lines. */
  lemma LegacyPartition(lines: seq<string>)
    ensures LegacyShape(LegacyRun(lines), CleanAll(lines))
  {
    LegacyRunIsSplitAtMarkers(lines);
    MarkerSplitLegacyShape(CleanAll(lines));
  }

  /** Both cleaning steps agree when no line is empty once cleaned. */
  lemma {:induction false} CleanAllIsCleanLines(lines: seq<string>)
    requires forall i :: 0 <= i < |lines| ==> Clean(lines[i]) != ""
    ensures CleanAll(lines) == CleanLines(lines)
  {
    if lines != [] {
      var init := lines[..|lines| - 1];
      var x := Clean(lines[|lines| - 1]);
      CleanAllIsCleanLines(init);
      assert x != "";
      CleanAllSnoc(lines);
      assert CleanLines(lines) == CleanLines(init) + [x];
    }
  }

  /** When no line is empty once cleaned, the two splitters agree: the legacy
      lists are the service's sections with the summary header moved to the
      end of the metadata and the transaction header taken out. */
  lemma LegacyAgreesWithService(lines: seq<string>)
    requires forall i :: 0 <= i < |lines| ==> Clean(lines[i]) != ""
    ensures Reachable(SplitSections(lines))
    ensures LegacyRun(lines) == FromSections(SplitSections(lines))
  {
    CleanAllIsCleanLines(lines);
    LegacyRunIsSplitAtMarkers(lines);
    RunIsSplitAtMarkers(lines);
  }

  // ---------------------------------------------------------------------------
  // Search date

  /** The first metadata line starting with `Sök:`, or "" when there is none. */
  function SearchLine(metadata: seq<string>): (r: string)
    ensures r != "" ==> StartsWith(r, SearchPrefix) && r in metadata
    ensures r == "" <==> forall k :: 0 <= k < |metadata| ==> !StartsWith(metadata[k], SearchPrefix)
  {
    if metadata == [] then ""
    else if StartsWith(metadata[0], SearchPrefix) then metadata[0]
    else
      assert forall k :: 1 <= k < |metadata| ==> metadata[k] == metadata[1..][k - 1];
      SearchLine(metadata[1..])
  }

  /** The search date: the search line's second `;` field, cut at its first
      comma and trimmed; `N/A` when there is no search line or it has no `;`. */
  function SearchDate(metadata: seq<string>): (r: string)
    ensures ';' !in SearchLine(metadata) ==> r == NoSearchDate
    ensures ';' in SearchLine(metadata) ==> ',' !in r && (r == "" || (!IsSpace(r[0]) && !IsSpace(r[|r| - 1])))
  {
    var line := SearchLine(metadata);
    if ';' in line then
      var f := FirstField(Split(line, ';')[1], ',');
      StripOmits(f, ',');
      Strip(f)
    else NoSearchDate
  }

  /** Whenever the search line has a `;`, the legacy search date is the date
      range the service displays for metadata whose search range is the
      line's second `;` field: both cut at the first comma and trim. */
  lemma SearchDateIsRangeDisplay(metadata: seq<string>, m: SwishData.Metadata)
    requires ';' in SearchLine(metadata)
    requires m.searchDateRange == Split(SearchLine(metadata), ';')[1]
    ensures SearchDate(metadata) == SwishData.DateRangeDisplay(m)
  {
  }

  // ---------------------------------------------------------------------------
  // Column selection

  /** The positions of `names` at or after `from` whose name is one of
      `wanted`, in increasing order. */
  function WantedIndices(names: seq<string>, wanted: seq<string>, from: nat): (r: seq<nat>)
    ensures forall k :: 0 <= k < |r| ==> from <= r[k] < |names| && names[r[k]] in wanted
    ensures forall k, l :: 0 <= k < l < |r| ==> r[k] < r[l]
    ensures forall i :: from <= i < |names| && names[i] in wanted ==> i in r
    decreases |names| - from
  {
    if from >= |names| then []
    else
      var rest := WantedIndices(names, wanted, from + 1);
      if names[from] in wanted then [from] + rest else rest
  }

  /** The names at the given positions. */
  function Pick(names: seq<string>, indices: seq<nat>): (r: seq<string>)
    requires forall k :: 0 <= k < |indices| ==> indices[k] < |names|
    ensures |r| == |indices| && forall k :: 0 <= k < |indices| ==> r[k] == names[indices[k]]
  {
    seq(|indices|, k requires 0 <= k < |indices| => names[indices[k]])
  }

  /** The cells at the given positions, `''` where the row is too short. */
  function PickPadded(cells: seq<string>, indices: seq<nat>): (r: seq<string>)
    ensures |r| == |indices|
    ensures forall k :: 0 <= k < |indices| ==> r[k] == (if indices[k] < |cells| then cells[indices[k]] else "")
  {
    seq(|indices|, k requires 0 <= k < |indices| => if indices[k] < |cells| then cells[indices[k]] else "")
  }

  // ---------------------------------------------------------------------------
  // The two tables

  /** Indexing a summary row that is shorter than a kept column's position:
      Python's IndexError. */
  datatype LegacyError = IndexError

  /** The summary table when there are summary rows: `SÖKDATUM` and the kept
      summary columns, in header order; one row of the search date and the
      first summary row's cells at the same positions; equal widths. A first
      row too short for a kept position raises. */
  function SummaryTable(r: LegacySplit): (t: Result<Table, LegacyError>)
    requires r.summaryData != []
  {
    var names := Split(r.summaryHeader, ';');
    var keep := WantedIndices(names, KeptSummaryColumns, 0);
    var first := Split(r.summaryData[0], ';');
    if exists k :: 0 <= k < |keep| && keep[k] >= |first| then Err(IndexError)
    else Ok(PickedTable(names, keep, first, SearchDate(r.metadata)))
  }

  /** `SÖKDATUM` and the picked names over `date` and the picked cells, in
      equal widths over the legacy table width. */
  function PickedTable(names: seq<string>, keep: seq<nat>, first: seq<string>, date: string): Table
    requires forall k :: 0 <= k < |keep| ==> keep[k] < |names| && keep[k] < |first|
  {
    Table([[DateColumnTitle] + Pick(names, keep), [date] + Pick(first, keep)], EqualWidths(LegacyTableWidth, |keep| + 1), 0)
  }

  /** The transaction table: the header's known columns in header order, each
      data row cut to the same positions and padded with `''`, widths
      proportional to the longest cell of each column, header included. */
  function TransactionTable(r: LegacySplit): (t: Result<Table, GenerateError>)
  {
    var names := Split(r.transactionHeader, ';');
    var keep := WantedIndices(names, DefaultTransactionColumns, 0);
    var header := Pick(names, keep);
    var rows := [header] + seq(|r.transactionData|, k requires 0 <= k < |r.transactionData| =>
                                 PickPadded(Split(r.transactionData[k], ';'), keep));
    assert HasColumns(rows, |header|);
    match ProportionalWidths(LegacyTableWidth, ColumnLengths(rows, header))
    case Ok(widths) => Ok(Table(rows, widths, 1))
    case Err(_) => Err(ZeroDivision)
  }

  /** The legacy document's blocks: the summary title, table and space when
      there are summary rows, then the transactions title and table. Only the
      summary table can fail; the transaction table is always built. */
  function ConvertLines(lines: seq<string>): (d: Result<seq<Block>, LegacyError>)
    ensures LegacyRun(lines).summaryData == [] ==> d.Ok? && |d.value| == 2
    ensures LegacyRun(lines).summaryData != [] ==>
              && (d.Ok? <==> SummaryTable(LegacyRun(lines)).Ok?)
              && (d.Ok? ==> |d.value| == 5 && d.value[..3] == [Heading(SummaryTitle), TableBlock(SummaryTable(LegacyRun(lines)).value), Spacer(12.0)])
    ensures d.Ok? ==>
              var n := |d.value|;
              && n >= 2 && d.value[n - 2] == Heading(TransactionsTitle) && d.value[n - 1].TableBlock?
              && TransactionTable(LegacyRun(lines)) == Ok(d.value[n - 1].table)
  {
    var r := LegacyRun(lines);
    LegacyTransactionWidths(r);
    var transactions := TransactionTable(r).value;
    var tail := [Heading(TransactionsTitle), TableBlock(transactions)];
    if r.summaryData == [] then Ok(tail)
    else
      var summary :- SummaryTable(r);
      Ok([Heading(SummaryTitle), TableBlock(summary), Spacer(12.0)] + tail)
  }

  // ---------------------------------------------------------------------------
  // Properties of the tables

  /** The summary table raises exactly when the first summary row is too
      short for a kept position. */
  lemma SummaryTableRaises(r: LegacySplit)
    requires r.summaryData != []
    ensures var keep := WantedIndices(Split(r.summaryHeader, ';'), KeptSummaryColumns, 0);
            var first := Split(r.summaryData[0], ';');
            SummaryTable(r).Err? <==> exists k :: 0 <= k < |keep| && keep[k] >= |first|
  {
    var names := Split(r.summaryHeader, ';');
    var keep := WantedIndices(names, KeptSummaryColumns, 0);
    var first := Split(r.summaryData[0], ';');
    if exists k :: 0 <= k < |keep| && keep[k] >= |first| {
      var k :| 0 <= k < |keep| && keep[k] >= |first|;
      assert SummaryTable(r) == Err(IndexError);
    } else {
      assert SummaryTable(r) == Ok(PickedTable(names, keep, first, SearchDate(r.metadata)));
    }
  }

  /** A summary table that is built is `SÖKDATUM` and the kept column names in
      header order, over the search date and the first summary row's cells at
      the same positions, in equal widths filling 600 points. */
  lemma SummaryTableShape(r: LegacySplit)
    requires r.summaryData != [] && SummaryTable(r).Ok?
    ensures var names := Split(r.summaryHeader, ';');
            var keep := WantedIndices(names, KeptSummaryColumns, 0);
            var first := Split(r.summaryData[0], ';');
            && (forall k :: 0 <= k < |keep| ==> keep[k] < |first|)
            && TwoRowShape(SummaryTable(r).value, names, keep, first, SearchDate(r.metadata))
  {
    var names := Split(r.summaryHeader, ';');
    var keep := WantedIndices(names, KeptSummaryColumns, 0);
    var first := Split(r.summaryData[0], ';');
    SummaryTableBuilt(r);
    BuiltTableShape(names, keep, first, SearchDate(r.metadata), SummaryTable(r).value);
  }

  /** `t` is `SÖKDATUM` over `date`, then the kept names over the cells of
      `first` at the same positions, in equal widths filling 600 points. */
  ghost predicate TwoRowShape(t: Table, names: seq<string>, keep: seq<nat>, first: seq<string>, date: string)
    requires forall k :: 0 <= k < |keep| ==> keep[k] < |names| && keep[k] < |first|
  {
    && RowsShape(t.rows, names, keep, first, date)
    && |t.widths| == |keep| + 1 && SumReal(t.widths) == LegacyTableWidth
    && (forall i :: 0 <= i < |t.widths| ==> t.widths[i] * (|keep| + 1) as real == LegacyTableWidth)
  }

  ghost predicate RowsShape(rows: seq<seq<string>>, names: seq<string>, keep: seq<nat>, first: seq<string>, date: string)
    requires forall k :: 0 <= k < |keep| ==> keep[k] < |names| && keep[k] < |first|
  {
    && |rows| == 2
    && rows[0] == [DateColumnTitle] + Pick(names, keep)
    && (forall k :: 1 <= k < |rows[0]| ==> rows[0][k] in KeptSummaryColumns)
    && |rows[1]| == |keep| + 1 && rows[1][0] == date
    && (forall k :: 0 <= k < |keep| ==> rows[1][k + 1] == first[keep[k]])
  }

  lemma BuiltTableShape(names: seq<string>, keep: seq<nat>, first: seq<string>, date: string, t: Table)
    requires forall k :: 0 <= k < |keep| ==> keep[k] < |names| && names[keep[k]] in KeptSummaryColumns && keep[k] < |first|
    requires t == PickedTable(names, keep, first, date)
    ensures TwoRowShape(t, names, keep, first, date)
  {
    EqualWidthsSum(LegacyTableWidth, |keep| + 1);
    BuiltRowsShape(names, keep, first, date);
  }

  lemma BuiltRowsShape(names: seq<string>, keep: seq<nat>, first: seq<string>, date: string)
    requires forall k :: 0 <= k < |keep| ==> keep[k] < |names| && names[keep[k]] in KeptSummaryColumns && keep[k] < |first|
    ensures RowsShape([[DateColumnTitle] + Pick(names, keep), [date] + Pick(first, keep)], names, keep, first, date)
  {
    var picked := Pick(names, keep);
    var header := [DateColumnTitle] + picked;
    forall k | 1 <= k < |header| ensures header[k] in KeptSummaryColumns {
      assert header[k] == picked[k - 1];
    }
    PickedRow(date, first, keep);
  }

  /** A summary table that is built is the header and the picked first row. */
  lemma SummaryTableBuilt(r: LegacySplit)
    requires r.summaryData != [] && SummaryTable(r).Ok?
    ensures var names := Split(r.summaryHeader, ';');
            var keep := WantedIndices(names, KeptSummaryColumns, 0);
            var first := Split(r.summaryData[0], ';');
            && (forall k :: 0 <= k < |keep| ==> keep[k] < |first|)
            && SummaryTable(r).value == PickedTable(names, keep, first, SearchDate(r.metadata))
  {
  }

  /** A cell followed by the picked cells: each picked cell sits one place on. */
  lemma PickedRow(d: string, cells: seq<string>, keep: seq<nat>)
    requires forall k :: 0 <= k < |keep| ==> keep[k] < |cells|
    ensures var row := [d] + Pick(cells, keep);
            |row| == |keep| + 1 && row[0] == d && forall k :: 0 <= k < |keep| ==> row[k + 1] == cells[keep[k]]
  {
  }

  /** The transaction table never divides by zero: either no column is kept,
      or a kept column's non-empty name makes the total length positive. The
      widths fill 600 points whenever a column is kept. */
  lemma LegacyTransactionWidths(r: LegacySplit)
    ensures TransactionTable(r).Ok?
    ensures var t := TransactionTable(r).value;
            |t.widths| == |t.rows[0]| && (t.rows[0] != [] ==> SumReal(t.widths) == LegacyTableWidth)
  {
    var names := Split(r.transactionHeader, ';');
    var keep := WantedIndices(names, DefaultTransactionColumns, 0);
    var header := Pick(names, keep);
    var rows := [header] + seq(|r.transactionData|, k requires 0 <= k < |r.transactionData| =>
                                 PickPadded(Split(r.transactionData[k], ';'), keep));
    if header != [] {
      assert header[0] in DefaultTransactionColumns;
      assert header[0] != "";
      NamedColumnsDivide(rows, header, 0);
      ProportionalWidthsSum(LegacyTableWidth, ColumnLengths(rows, header));
    }
  }

  /** The transaction table's rows: the kept header names, then one row per
      transaction line with the cell at each kept position, `''` past the end
      of a short row. */
  lemma LegacyTransactionRows(r: LegacySplit, k: nat, j: nat)
    requires k < |r.transactionData|
    ensures var names := Split(r.transactionHeader, ';');
            var keep := WantedIndices(names, DefaultTransactionColumns, 0);
            var t := TransactionTable(r);
            var cells := Split(r.transactionData[k], ';');
            && t.Ok? && |t.value.rows| == |r.transactionData| + 1
            && t.value.rows[0] == Pick(names, keep)
            && (j < |keep| ==> t.value.rows[k + 1][j] == (if keep[j] < |cells| then cells[keep[j]] else ""))
  {
    LegacyTransactionWidths(r);
  }
}

=== FILE: pdf_generator.dfy ===
/** The PDF generation service without the rendering: the page-format and
    font-size state, the refusal to render a report without transactions, and
    the blocks handed to the layout engine, that is the two tables with their
    rows and column widths. */
module PdfGenerator {
  import opened Results
  import opened Text
  import opened SwishData
  import opened Layout

  datatype PageSize = A4 | Letter

  /** Page width in points (1/72 inch): A4 is 210 mm wide, letter 8.5 in. */
  function PageWidth(p: PageSize): real {
    match p
    case A4 => 75600.0 / 127.0
    case Letter => 612.0
  }

  /** Page height in points: A4 is 297 mm high, letter 11 in. */
  function PageHeight(p: PageSize): real {
    match p
    case A4 => 106920.0 / 127.0
    case Letter => 792.0
  }

  const LeftMargin := 40.0
  const RightMargin := 40.0
  const TopMargin := 50.0
  const BottomMargin := 50.0

  /** The width both tables are laid out to: A4's width less the side margins,
      rounded down to whole points. */
  const TableWidth := 515.0

  /** The columns the transaction table shows when the caller names none. */
  const DefaultTransactionColumns: seq<string> :=
    ["DATUM", "TID", "MARKNADSNAMN", "SWISH NUMMER", "NAMN", "MOBILNUMMER", "BELOPP"]

  const SummaryTitle := "Översikt"
  const TransactionsTitle := "Transaktioner"
  const SummaryHeader: seq<string> := ["SÖKDATUM", "ANTAL SWISH-BETALNINGAR", "TOTALT INBETALAT BELOPP"]

  /** The service's settings. The orientation is kept but nothing reads it. */
  datatype Config = Config(pageSize: PageSize, orientation: string, fontSize: int)

  const InitialConfig := Config(A4, "portrait", 7)

  /** A table: its rows (the first is the header), one width per column, and
      how many leading rows repeat on every page. */
  datatype Table = Table(rows: seq<seq<string>>, widths: seq<real>, repeatRows: nat)

  /** What the document is built from, in order. */
  datatype Block = Heading(text: string) | Spacer(height: real) | TableBlock(table: Table)

  /** A document as handed to the layout engine. */
  datatype Document = Document(
    outputPath: string,
    pageSize: PageSize,
    fontSize: int,
    margins: (real, real, real, real),
    blocks: seq<Block>)

  /** Why `generate_pdf` raises: the ValueError for a report without
      transactions, or the ZeroDivisionError of the proportional widths. */
  datatype GenerateError = NoTransactions | ZeroDivision

  /** `str(e)` for those errors. */
  function ErrorText(e: GenerateError): string {
    match e
    case NoTransactions => "Cannot generate PDF: report has no transactions"
    case ZeroDivision => "division by zero"
  }

  // ---------------------------------------------------------------------------
  // Settings

  /** `set_page_format`: `A4` and `Letter` are recognised in any letter case;
      any other page size leaves the current one; the orientation is stored
      lower-cased. The font size is untouched. */
  function SetPageFormat(cfg: Config, pageSize: string, orientation: string): (r: Config)
    ensures Upper(pageSize) == "A4" ==> r.pageSize == A4
    ensures Upper(pageSize) == "LETTER" ==> r.pageSize == Letter
    ensures Upper(pageSize) != "A4" && Upper(pageSize) != "LETTER" ==> r.pageSize == cfg.pageSize
    ensures r.orientation == Lower(orientation) && r.fontSize == cfg.fontSize
  {
    var size :=
      if Upper(pageSize) == "A4" then A4
      else if Upper(pageSize) == "LETTER" then Letter
      else cfg.pageSize;
    Config(size, Lower(orientation), cfg.fontSize)
  }

  /** `set_font_size`: the page format is untouched. */
  function SetFontSize(cfg: Config, size: int): (r: Config)
    ensures r.fontSize == size
    ensures r.pageSize == cfg.pageSize && r.orientation == cfg.orientation
  {
    cfg.(fontSize := size)
  }

  /** Mapping ASCII letters to lower case and back lands where upper-casing does. */
  lemma UpperLower(s: string)
    ensures Upper(Lower(s)) == Upper(s)
  {
    assert forall i :: 0 <= i < |s| ==> UpperChar(LowerChar(s[i])) == UpperChar(s[i]);
  }

  /** The page-size and orientation arguments are read without regard to
      letter case, and setting the same format twice is setting it once. */
  lemma SetPageFormatIgnoresCase(cfg: Config, pageSize: string, orientation: string)
    ensures SetPageFormat(cfg, Lower(pageSize), orientation) == SetPageFormat(cfg, pageSize, orientation)
    ensures SetPageFormat(cfg, pageSize, Upper(orientation)) == SetPageFormat(cfg, pageSize, orientation)
    ensures var c := SetPageFormat(cfg, pageSize, orientation);
            SetPageFormat(c, pageSize, orientation) == c
  {
    UpperLower(pageSize);
    assert Lower(Upper(orientation)) == Lower(orientation) by {
      assert forall i :: 0 <= i < |orientation| ==>
        LowerChar(UpperChar(orientation[i])) == LowerChar(orientation[i]);
    }
  }

  /** Both page sizes leave room for the table between the side margins. */
  lemma TableFitsPage(p: PageSize)
    ensures LeftMargin + TableWidth + RightMargin <= PageWidth(p)
  {
  }

  // ---------------------------------------------------------------------------
  // The summary section

  /** The summary table's one data row: the displayed search range, the
      payment count as text and the total amount. */
  function SummaryRow(report: Report): (row: seq<string>)
    ensures |row| == 3
    ensures row[0] == DateRangeDisplay(report.metadata)
    ensures row[1] == IntToString(report.summary.paymentCount)
    ensures ParseInt(row[1]) == Some(report.summary.paymentCount)
    ensures row[2] == report.summary.totalAmount
  {
    var d := DisplayData(report.summary);
    [DateRangeDisplay(report.metadata), d.paymentCount, d.totalAmount]
  }

  /** `_create_summary_section`: a title, a header and one data row in three
      equal columns (as many as the header names), and the space below. */
  function SummarySection(report: Report): (r: seq<Block>)
    ensures |r| == 4
    ensures r[0] == Heading(SummaryTitle) && r[1] == Spacer(6.0) && r[3] == Spacer(20.0)
    ensures r[2].TableBlock? && r[2].table.rows == [SummaryHeader, SummaryRow(report)] && r[2].table.repeatRows == 0
    ensures |r[2].table.widths| == 3 && SumReal(r[2].table.widths) == TableWidth
    ensures forall i, j :: 0 <= i < 3 && 0 <= j < 3 ==> r[2].table.widths[i] == r[2].table.widths[j]
  {
    var table := Table([SummaryHeader, SummaryRow(report)], SummaryWidths(), 0);
    SectionBlocks(Heading(SummaryTitle), TableBlock(table), 20.0)
  }

  /** A titled table: the title, a small gap, the table, and `after` below. */
  function SectionBlocks(title: Block, table: Block, after: real): (r: seq<Block>)
    ensures |r| == 4 && r[0] == title && r[1] == Spacer(6.0) && r[2] == table && r[3] == Spacer(after)
  {
    [title, Spacer(6.0), table, Spacer(after)]
  }

  /** Three equal columns over the table width. */
  function SummaryWidths(): (w: seq<real>)
    ensures |w| == 3 && SumReal(w) == TableWidth
    ensures forall i, j :: 0 <= i < 3 && 0 <= j < 3 ==> w[i] == w[j]
  {
    EqualWidthsSum(TableWidth, 3);
    EqualWidths(TableWidth, 3)
  }

  // ---------------------------------------------------------------------------
  // The transactions section

  /** The transaction table's rows: the column names, then each transaction
      projected onto them, in order. Every row is as wide as `columns`. */
  function TransactionRows(transactions: seq<Transaction>, columns: seq<string>): (rows: seq<seq<string>>)
    ensures |rows| == |transactions| + 1
    ensures rows[0] == columns
    ensures forall k :: 0 <= k < |transactions| ==> rows[k + 1] == ToList(transactions[k], columns)
    ensures forall k :: 0 <= k < |rows| ==> |rows[k]| == |columns|
  {
    [columns] + seq(|transactions|, k requires 0 <= k < |transactions| => ToList(transactions[k], columns))
  }

  /** The longest cell of each column, header included. */
  function ColumnLengths(rows: seq<seq<string>>, columns: seq<string>): (lengths: seq<nat>)
    requires rows != [] && rows[0] == columns && HasColumns(rows, |columns|)
    ensures |lengths| == |columns|
    ensures forall i :: 0 <= i < |columns| ==> |columns[i]| <= lengths[i]
    ensures forall i, k :: 0 <= i < |columns| && 0 <= k < |rows| ==> |rows[k][i]| <= lengths[i]
    ensures forall i :: 0 <= i < |columns| ==> exists k :: 0 <= k < |rows| && |rows[k][i]| == lengths[i]
  {
    var lengths := MaxLengths(rows, |columns|);
    assert forall i :: 0 <= i < |columns| ==> |rows[0][i]| <= lengths[i];
    lengths
  }

  /** `_create_transactions_section`: a title, the space below it, and the
      table with its header repeated on every page and its columns as wide as
      their longest cells allow; a division error when every cell of every
      column is empty. */
  function TransactionsSection(transactions: seq<Transaction>, columns: seq<string>): (r: Result<seq<Block>, GenerateError>)
    ensures r.Err? <==> columns != [] && SumNat(ColumnLengths(TransactionRows(transactions, columns), columns)) == 0
    ensures r.Ok? ==> |r.value| == 3 && r.value[..2] == [Heading(TransactionsTitle), Spacer(6.0)] && r.value[2].TableBlock?
    ensures r.Err? ==> r.error == ZeroDivision
    ensures r.Ok? ==> r.value[2].table.rows == TransactionRows(transactions, columns)
    ensures r.Ok? ==> r.value[2].table.widths == ProportionalWidths(TableWidth, ColumnLengths(TransactionRows(transactions, columns), columns)).value
  {
    var rows := TransactionRows(transactions, columns);
    match ProportionalWidths(TableWidth, ColumnLengths(rows, columns))
    case Ok(widths) => Ok([Heading(TransactionsTitle), Spacer(6.0), TableBlock(Table(rows, widths, 1))])
    case Err(_) => Err(ZeroDivision)
  }

  // ---------------------------------------------------------------------------
  // The document

  /** `generate_pdf`: refuses a report without transactions before anything
      else; uses the default columns when none are given; otherwise the summary
      section followed by the transactions section, on the configured page
      with the fixed margins. */
  function GeneratePdf(report: Report, outputPath: string, columns: Option<seq<string>>, cfg: Config): (r: Result<Document, GenerateError>)
    ensures !HasTransactions(report) ==> r == Err(NoTransactions)
    ensures r.Ok? ==> HasTransactions(report)
    ensures r.Ok? ==> r.value.outputPath == outputPath && r.value.pageSize == cfg.pageSize && r.value.fontSize == cfg.fontSize
    ensures r.Ok? ==> |r.value.blocks| == 7 && r.value.blocks[..4] == SummarySection(report)
    ensures r.Ok? ==> TransactionsSection(report.transactions, columns.GetOr(DefaultTransactionColumns)).Ok?
    ensures r.Ok? ==> r.value.blocks[4..] == TransactionsSection(report.transactions, columns.GetOr(DefaultTransactionColumns)).value
    ensures r.Ok? ==> r.value.margins == (LeftMargin, RightMargin, TopMargin, BottomMargin)
    ensures HasTransactions(report) && TransactionsSection(report.transactions, columns.GetOr(DefaultTransactionColumns)).Ok? ==> r.Ok?
    ensures HasTransactions(report) && TransactionsSection(report.transactions, columns.GetOr(DefaultTransactionColumns)).Err? ==> r == Err(ZeroDivision)
  {
    if !HasTransactions(report) then Err(NoTransactions)
    else
      var cols := columns.GetOr(DefaultTransactionColumns);
      var transactions :- TransactionsSection(report.transactions, cols);
      var blocks := SummarySection(report) + transactions;
      assert blocks[..4] == SummarySection(report) && blocks[4..] == transactions;
      Ok(Document(outputPath, cfg.pageSize, cfg.fontSize, (LeftMargin, RightMargin, TopMargin, BottomMargin), blocks))
  }

  /** Both tables of a generated document fit across its page between the
      side margins it carries. */
  lemma GeneratedTablesFitPage(report: Report, outputPath: string, columns: Option<seq<string>>, cfg: Config)
    requires GeneratePdf(report, outputPath, columns, cfg).Ok?
    ensures var doc := GeneratePdf(report, outputPath, columns, cfg).value;
            && doc.blocks[2].TableBlock? && doc.blocks[6].TableBlock?
            && doc.margins.0 + SumReal(doc.blocks[2].table.widths) + doc.margins.1 <= PageWidth(doc.pageSize)
            && doc.margins.0 + SumReal(doc.blocks[6].table.widths) + doc.margins.1 <= PageWidth(doc.pageSize)
  {
    var doc := GeneratePdf(report, outputPath, columns, cfg).value;
    assert doc.blocks[2] == SummarySection(report)[2];
    GeneratedTransactionTable(report, outputPath, columns, cfg);
    TableFitsPage(doc.pageSize);
  }

  /** No columns means the seven default columns. */
  lemma DefaultColumnsUsed(report: Report, outputPath: string, cfg: Config)
    ensures GeneratePdf(report, outputPath, None, cfg) == GeneratePdf(report, outputPath, Some(DefaultTransactionColumns), cfg)
  {
  }

  /** The stored orientation has no effect on the document. */
  lemma OrientationUnused(report: Report, outputPath: string, columns: Option<seq<string>>, cfg: Config, orientation: string)
    ensures GeneratePdf(report, outputPath, columns, cfg.(orientation := orientation)) == GeneratePdf(report, outputPath, columns, cfg)
  {
  }

  /** A column named by a non-empty string can never make the widths divide by
      zero: its header cell alone makes the sum positive. */
  lemma {:induction false} NamedColumnsDivide(rows: seq<seq<string>>, columns: seq<string>, i: nat)
    requires rows != [] && rows[0] == columns && HasColumns(rows, |columns|)
    requires i < |columns| && columns[i] != ""
    ensures SumNat(ColumnLengths(rows, columns)) > 0
  {
    var lengths := ColumnLengths(rows, columns);
    assert lengths[i] > 0;
    SumNatPositive(lengths, i);
  }

  /** A sum of naturals with a positive term is positive. */
  lemma {:induction false} SumNatPositive(xs: seq<nat>, i: nat)
    requires i < |xs| && xs[i] > 0
    ensures SumNat(xs) > 0
  {
    if i > 0 {
      SumNatPositive(xs[1..], i - 1);
    }
  }

  /** With the default columns, generation fails exactly when the report has no
      transactions. */
  lemma DefaultGenerationSucceeds(report: Report, outputPath: string, cfg: Config)
    ensures GeneratePdf(report, outputPath, None, cfg).Ok? <==> HasTransactions(report)
  {
    if HasTransactions(report) {
      var rows := TransactionRows(report.transactions, DefaultTransactionColumns);
      NamedColumnsDivide(rows, DefaultTransactionColumns, 0);
    }
  }

  /** A generated document holds, after the four summary blocks, the
      transactions title and table: the column names, one projected row per
      transaction in order, and widths that are non-negative and fill the
      table width exactly (no columns, no widths). */
  lemma GeneratedTransactionTable(report: Report, outputPath: string, columns: Option<seq<string>>, cfg: Config)
    requires GeneratePdf(report, outputPath, columns, cfg).Ok?
    ensures var doc := GeneratePdf(report, outputPath, columns, cfg).value;
            var cols := columns.GetOr(DefaultTransactionColumns);
            && doc.blocks[4] == Heading(TransactionsTitle)
            && doc.blocks[6].TableBlock?
            && doc.blocks[6].table.rows == TransactionRows(report.transactions, cols)
            && doc.blocks[6].table.repeatRows == 1
            && |doc.blocks[6].table.widths| == |cols|
            && (cols != [] ==> SumReal(doc.blocks[6].table.widths) == TableWidth)
            && (forall i :: 0 <= i < |cols| ==> doc.blocks[6].table.widths[i] >= 0.0)
  {
    var doc := GeneratePdf(report, outputPath, columns, cfg).value;
    var cols := columns.GetOr(DefaultTransactionColumns);
    var section := TransactionsSection(report.transactions, cols);
    assert doc.blocks[4] == section.value[0] && doc.blocks[6] == section.value[2];
    TransactionTable(report.transactions, cols);
  }

  /** The transactions section's table: the rows, the repeated header, and
      widths that are non-negative and fill the table width exactly. */
  lemma TransactionTable(transactions: seq<Transaction>, columns: seq<string>)
    requires TransactionsSection(transactions, columns).Ok?
    ensures var b := TransactionsSection(transactions, columns).value;
            && b[0] == Heading(TransactionsTitle)
            && b[2].table.rows == TransactionRows(transactions, columns)
            && b[2].table.repeatRows == 1
            && |b[2].table.widths| == |columns|
            && (columns != [] ==> SumReal(b[2].table.widths) == TableWidth)
            && (forall i :: 0 <= i < |columns| ==> b[2].table.widths[i] >= 0.0)
  {
    var rows := TransactionRows(transactions, columns);
    var lengths := ColumnLengths(rows, columns);
    var widths := ProportionalWidths(TableWidth, lengths).value;
    if columns != [] {
      ProportionalWidthsSum(TableWidth, lengths);
    }
    forall i | 0 <= i < |columns| ensures widths[i] >= 0.0 {
      ProportionalWidthsOrdered(TableWidth, lengths, i, i);
    }
  }
}

=== FILE: results.dfy ===
/** Optional values and success/error results, the shapes every module of the
    model uses in place of Python's None and raised exceptions. */
module Results {

  /** A value that may be absent (Python's `Optional`). */
  datatype Option<+T> = None | Some(value: T) {

    /** The carried value, or `default` when absent (Python's `x or default`). */
    function GetOr(default: T): T {
      match this
      case Some(v) => v
      case None => default
    }
  }

  /** The outcome of an operation that can raise: a value or the error raised. */
  datatype Result<+T, +E> = Ok(value: T) | Err(error: E) {

    predicate IsFailure() {
      Err?
    }

    function PropagateFailure<U>(): Result<U, E>
      requires Err?
    {
      Err(error)
    }

    function Extract(): T
      requires Ok?
    {
      value
    }
  }
}

=== FILE: swish_data.dfy ===
/** The report model: the metadata, summary and transaction records parsed from
    one Swish export, and the values derived from them for display. Records are
    immutable; a re-parse builds a new report. */
module SwishData {
  import opened Results
  import opened Text

  /** The key/value block at the top of the export. `searchDateRange` is the
      `Sök` value: a date span followed by comma-separated annotations. */
  datatype Metadata = Metadata(
    createdBy: string,
    date: string,
    searchCriteria: string,
    searchDateRange: string,
    swishNumber: string,
    resultCount: int)

  /** The one summary row the report keeps. The amounts stay verbatim text. */
  datatype Summary = Summary(
    marketName: string,
    swishNumber: string,
    paymentCount: int,
    totalAmount: string,
    netAmount: Option<string>)

  /** One payment. `message` and `reference` are None when the export has no
      such column, which is distinct from an empty value. */
  datatype Transaction = Transaction(
    date: string,
    time: string,
    marketName: string,
    swishNumber: string,
    name: string,
    mobileNumber: string,
    amount: string,
    message: Option<string>,
    reference: Option<string>)

  datatype Report = Report(metadata: Metadata, summary: Summary, transactions: seq<Transaction>)

  /** What the preview panel shows before a document is generated. */
  datatype Preview = Preview(dateRange: string, transactionCount: nat, totalAmount: string, marketName: string)

  /** The summary figures as display text, keyed in the source by
      'Antal Swish-betalningar' and 'Totalt inbetalat belopp'. */
  datatype SummaryDisplay = SummaryDisplay(paymentCount: string, totalAmount: string)

  /** The date span of a `Sök` value: the text before the first comma (or the
      whole value when there is none), with surrounding whitespace removed. */
  function DateRangeDisplay(m: Metadata): (r: string)
    ensures ',' !in r
    ensures r == "" || (!IsSpace(r[0]) && !IsSpace(r[|r| - 1]))
    ensures ',' !in m.searchDateRange ==> r == Strip(m.searchDateRange)
    ensures ',' in m.searchDateRange ==> r == Strip(m.searchDateRange[..IndexOf(m.searchDateRange, ',')])
  {
    var f := FirstField(m.searchDateRange, ',');
    StripOmits(f, ',');
    Strip(f)
  }

  /** A range with no comma and no surrounding whitespace is displayed as is. */
  lemma DisplayOfTrimmed(m: Metadata)
    requires ',' !in m.searchDateRange
    requires var s := m.searchDateRange; s == "" || (!IsSpace(s[0]) && !IsSpace(s[|s| - 1]))
    ensures DateRangeDisplay(m) == m.searchDateRange
  {
    StripTrimmed(m.searchDateRange);
  }

  /** Taking the display form of an already displayed range changes nothing. */
  lemma DateRangeDisplayIdempotent(m: Metadata)
    ensures var d := DateRangeDisplay(m);
            DateRangeDisplay(m.(searchDateRange := d)) == d
  {
    var d := DateRangeDisplay(m);
    var shown := m.(searchDateRange := d);
    assert shown.searchDateRange == d;
    DisplayOfTrimmed(shown);
  }

  /** The names `to_list` understands, in the source's mapping order. */
  const KnownColumns: seq<string> :=
    ["DATUM", "TID", "MARKNADSNAMN", "SWISH NUMMER", "NAMN", "MOBILNUMMER", "BELOPP", "MEDDELANDE", "REFERENS"]

  /** The cell a transaction shows under column `name`: its field, `''` for an
      absent message or reference, and `''` for a name it does not know. */
  function CellValue(t: Transaction, name: string): (r: string)
    ensures name !in KnownColumns ==> r == ""
    ensures name == "MEDDELANDE" && t.message.None? ==> r == ""
    ensures name == "REFERENS" && t.reference.None? ==> r == ""
  {
    match name
    case "DATUM" => t.date
    case "TID" => t.time
    case "MARKNADSNAMN" => t.marketName
    case "SWISH NUMMER" => t.swishNumber
    case "NAMN" => t.name
    case "MOBILNUMMER" => t.mobileNumber
    case "BELOPP" => t.amount
    case "MEDDELANDE" => t.message.GetOr("")
    case "REFERENS" => t.reference.GetOr("")
    case _ => ""
  }

  /** `to_list(columns)`: one cell per requested column, in the requested order. */
  function ToList(t: Transaction, columns: seq<string>): (r: seq<string>)
    ensures |r| == |columns|
    ensures forall i :: 0 <= i < |columns| ==> r[i] == CellValue(t, columns[i])
  {
    seq(|columns|, i requires 0 <= i < |columns| => CellValue(t, columns[i]))
  }

  /** Projection distributes over concatenation of column lists, so repeated
      and reordered column names give repeated and reordered cells. */
  lemma ToListAppend(t: Transaction, a: seq<string>, b: seq<string>)
    ensures ToList(t, a + b) == ToList(t, a) + ToList(t, b)
  {
  }

  /** Projecting onto every known column yields the fields in the mapping's
      order, with absent optional fields shown as empty text. */
  lemma ToListKnownColumns(t: Transaction)
    ensures ToList(t, KnownColumns) ==
      [t.date, t.time, t.marketName, t.swishNumber, t.name, t.mobileNumber, t.amount,
       t.message.GetOr(""), t.reference.GetOr("")]
  {
  }

  /** `transaction_count`. */
  function TransactionCount(r: Report): (n: nat)
    ensures n == |r.transactions|
  {
    |r.transactions|
  }

  /** `has_transactions`: at least one transaction. */
  predicate HasTransactions(r: Report)
    ensures HasTransactions(r) <==> r.transactions != []
  {
    TransactionCount(r) > 0
  }

  /** `get_display_data`: the payment count as decimal text that reads back
      as the same number, and the total amount verbatim. */
  function DisplayData(s: Summary): (d: SummaryDisplay)
    ensures d.paymentCount == IntToString(s.paymentCount)
    ensures ParseInt(d.paymentCount) == Some(s.paymentCount)
    ensures d.totalAmount == s.totalAmount
  {
    ParseIntToString(s.paymentCount);
    SummaryDisplay(IntToString(s.paymentCount), s.totalAmount)
  }

  /** `get_preview_data`: the displayed range, the count and the summary's
      amount and market name, carried unchanged. */
  function PreviewData(r: Report): (p: Preview)
    ensures p.dateRange == DateRangeDisplay(r.metadata)
    ensures p.transactionCount == |r.transactions|
    ensures p.totalAmount == r.summary.totalAmount
    ensures p.marketName == r.summary.marketName
  {
    Preview(DateRangeDisplay(r.metadata), TransactionCount(r), r.summary.totalAmount, r.summary.marketName)
  }
}

=== FILE: text.dfy ===
/** The pieces of Python's `str` behaviour the converter relies on: whitespace
    trimming, prefix/substring tests, `split`, `replace`, `rstrip`, ASCII case
    mapping, and `int()` / `str()` on integers. Strings are sequences of Unicode
    scalar values, so `|s|` is Python's `len(s)`. */
module Text {
  import opened Results

  // ---------------------------------------------------------------------------
  // Whitespace and trimming

  /** Python's `str.isspace()` for one character: exactly the characters that
      `strip()` and `split()` treat as whitespace. */
  predicate IsSpace(c: char) {
    || c == ' '
    || ('\t' <= c <= '\r')
    || ('\U{1C}' <= c <= '\U{1F}')
    || c == '\U{85}' || c == '\U{A0}' || c == '\U{1680}'
    || ('\U{2000}' <= c <= '\U{200A}')
    || c == '\U{2028}' || c == '\U{2029}' || c == '\U{202F}'
    || c == '\U{205F}' || c == '\U{3000}'
  }

  predicate AllSpace(s: string) {
    forall i :: 0 <= i < |s| ==> IsSpace(s[i])
  }

  /** `s.lstrip()`: drops the leading whitespace and nothing else. */
  function TrimStart(s: string): (r: string)
    ensures |r| <= |s| && r == s[|s| - |r|..]
    ensures r == "" || !IsSpace(r[0])
    ensures forall i :: 0 <= i < |s| - |r| ==> IsSpace(s[i])
    decreases |s|
  {
    if |s| > 0 && IsSpace(s[0]) then TrimStart(s[1..]) else s
  }

  /** `s.rstrip()`: drops the trailing whitespace and nothing else. */
  function TrimEnd(s: string): (r: string)
    ensures |r| <= |s| && r == s[..|r|]
    ensures r == "" || !IsSpace(r[|r| - 1])
    ensures forall i :: |r| <= i < |s| ==> IsSpace(s[i])
    decreases |s|
  {
    if |s| > 0 && IsSpace(s[|s| - 1]) then TrimEnd(s[..|s| - 1]) else s
  }

  /** `s.strip()`. */
  function Strip(s: string): (r: string)
    ensures |r| <= |s|
    ensures r == "" <==> AllSpace(s)
    ensures r == "" || (!IsSpace(r[0]) && !IsSpace(r[|r| - 1]))
  {
    var t := TrimStart(s);
    var r := TrimEnd(t);
    assert r == "" ==> t == "";
    r
  }

  /** `strip()` only removes characters: whatever it keeps was in the input. */
  lemma StripKeeps(s: string, c: char)
    requires c in Strip(s)
    ensures c in s
  {
    var t := TrimStart(s);
    var r := TrimEnd(t);
    var k :| 0 <= k < |r| && r[k] == c;
    assert r[k] == t[k];
    var j := |s| - |t| + k;
    assert t[k] == s[j];
    assert 0 <= j < |s| && s[j] == c;
  }

  /** `strip()` cannot introduce a character the input lacks. */
  lemma StripOmits(s: string, c: char)
    requires c !in s
    ensures c !in Strip(s)
  {
    if c in Strip(s) {
      StripKeeps(s, c);
    }
  }

  /** A string with no whitespace at either end is its own `strip()`. */
  lemma StripTrimmed(s: string)
    requires s == "" || (!IsSpace(s[0]) && !IsSpace(s[|s| - 1]))
    ensures Strip(s) == s
  {
    if s != "" {
      assert TrimStart(s) == s;
      assert TrimEnd(s) == s;
    }
  }

  /** `strip()` is idempotent. */
  lemma StripIdempotent(s: string)
    ensures Strip(Strip(s)) == Strip(s)
  {
    StripTrimmed(Strip(s));
  }

  // ---------------------------------------------------------------------------
  // Prefixes, suffixes and substrings

  /** `s.startswith(p)`. */
  predicate StartsWith(s: string, p: string) {
    |p| <= |s| && s[..|p|] == p
  }

  /** `s.endswith(p)`. */
  predicate EndsWith(s: string, p: string) {
    |p| <= |s| && s[|s| - |p|..] == p
  }

  /** The three parts of `a + b + c` are found where they were put. */
  lemma ThreeParts(a: string, b: string, c: string)
    ensures StartsWith(a + b + c, a) && EndsWith(a + b + c, c)
    ensures (a + b + c)[|a|..|a| + |b|] == b
  {
  }

  /** `p` occurs in `s` starting at position `k`. */
  predicate OccursAt(s: string, p: string, k: nat) {
    k + |p| <= |s| && s[k..k + |p|] == p
  }

  /** `s.find(p)` from position `from` on, as an optional index: the first
      occurrence at or after `from`. */
  function FindFrom(s: string, p: string, from: nat): (r: Option<nat>)
    ensures r.Some? ==> from <= r.value && OccursAt(s, p, r.value)
    ensures r.Some? ==> forall k: nat :: from <= k < r.value ==> !OccursAt(s, p, k)
    ensures r.None? ==> forall k: nat :: from <= k ==> !OccursAt(s, p, k)
    decreases |s| - from
  {
    if from + |p| > |s| then None
    else if OccursAt(s, p, from) then Some(from)
    else FindFrom(s, p, from + 1)
  }

  /** `s.find(p)`, or None where Python gives -1. */
  function Find(s: string, p: string): Option<nat> {
    FindFrom(s, p, 0)
  }

  /** `p in s` for strings. */
  predicate Contains(s: string, p: string) {
    Find(s, p).Some?
  }

  /** `p in s` holds exactly when `p` occurs somewhere in `s`. */
  lemma ContainsOccurs(s: string, p: string, k: nat)
    requires OccursAt(s, p, k)
    ensures Contains(s, p)
  {
  }

  /** A string that is a prefix of `s` is contained in `s`. */
  lemma StartsWithContains(s: string, p: string)
    requires StartsWith(s, p)
    ensures Contains(s, p)
  {
    assert OccursAt(s, p, 0);
  }

  /** The text before the first occurrence of `p`, or all of `s`: `s.split(p)[0]`. */
  function BeforeSub(s: string, p: string): (r: string)
    ensures StartsWith(s, r)
    ensures Contains(s, p) ==> OccursAt(s, p, |r|) && forall k: nat :: k < |r| ==> !OccursAt(s, p, k)
    ensures !Contains(s, p) ==> r == s
  {
    match Find(s, p)
    case Some(k) => s[..k]
    case None => s
  }

  /** When `p` starts nowhere inside `a`, the text before the first `p` in
      `a + p + b` is `a`. */
  lemma BeforeFirst(a: string, p: string, b: string)
    requires forall k: nat :: k < |a| ==> !OccursAt(a + p + b, p, k)
    ensures BeforeSub(a + p + b, p) == a
  {
    var s := a + p + b;
    assert s[|a|..|a| + |p|] == p;
    ContainsOccurs(s, p, |a|);
    var r := BeforeSub(s, p);
    assert |r| == |a|;
    assert r == s[..|a|] == a;
  }

  // ---------------------------------------------------------------------------
  // Splitting on one character

  /** The index of the first `c` in `s`. */
  function IndexOf(s: string, c: char): (k: nat)
    requires c in s
    ensures k < |s| && s[k] == c && c !in s[..k]
  {
    if s[0] == c then 0 else IndexOf(s[1..], c) + 1
  }

  /** `s.split(c)`: the pieces between occurrences of `c`, never empty. */
  function Split(s: string, c: char): (r: seq<string>)
    ensures |r| >= 1
    ensures |r| >= 2 <==> c in s
    ensures forall i :: 0 <= i < |r| ==> c !in r[i]
    decreases |s|
  {
    if c in s then
      var k := IndexOf(s, c);
      [s[..k]] + Split(s[k + 1..], c)
    else [s]
  }

  /** Splitting on a separator the first piece does not contain peels off
      exactly that piece. */
  lemma SplitAfterField(a: string, c: char, b: string)
    requires c !in a
    ensures Split(a + [c] + b, c) == [a] + Split(b, c)
  {
    var s := a + [c] + b;
    assert s[|a|] == c;
    assert c !in s[..|a|] by { assert s[..|a|] == a; }
    assert IndexOf(s, c) == |a|;
    assert s[..|a|] == a && s[|a| + 1..] == b;
  }

  /** `c.join(parts)`. */
  function Join(parts: seq<string>, c: char): string
    requires |parts| >= 1
  {
    if |parts| == 1 then parts[0] else parts[0] + [c] + Join(parts[1..], c)
  }

  /** Joining the pieces of `split` with the same separator gives back the
      original text. */
  lemma {:induction false} JoinSplit(s: string, c: char)
    ensures Join(Split(s, c), c) == s
    decreases |s|
  {
    if c in s {
      var k := IndexOf(s, c);
      JoinSplit(s[k + 1..], c);
      assert s == s[..k] + [c] + s[k + 1..];
    }
  }

  /** `s.split(c)[0]`: the text before the first `c`, or all of `s`. */
  function FirstField(s: string, c: char): (r: string)
    ensures r == Split(s, c)[0]
    ensures c !in r && StartsWith(s, r)
    ensures c in s ==> |r| < |s| && s[|r|] == c
    ensures c !in s ==> r == s
  {
    if c in s then s[..IndexOf(s, c)] else s
  }

  /** Strings joined with a separator string: `sep.join(parts)`. */
  function JoinWith(parts: seq<string>, sep: string): string {
    if |parts| == 0 then ""
    else if |parts| == 1 then parts[0]
    else parts[0] + sep + JoinWith(parts[1..], sep)
  }

  // ---------------------------------------------------------------------------
  // Character removal and case mapping

  /** `s.replace(c, "")` for one character. */
  function RemoveChar(s: string, c: char): (r: string)
    ensures c !in r
    ensures |r| <= |s|
    ensures forall d :: d != c ==> (d in r <==> d in s)
    ensures c !in s ==> r == s
  {
    if s == [] then []
    else (if s[0] == c then [] else [s[0]]) + RemoveChar(s[1..], c)
  }

  /** `s.rstrip(c)`: drops every trailing `c`. */
  function RStripChar(s: string, c: char): (r: string)
    ensures |r| <= |s| && r == s[..|r|]
    ensures r == "" || r[|r| - 1] != c
    ensures forall i :: |r| <= i < |s| ==> s[i] == c
    decreases |s|
  {
    if |s| > 0 && s[|s| - 1] == c then RStripChar(s[..|s| - 1], c) else s
  }

  function LowerChar(c: char): char {
    if 'A' <= c <= 'Z' then (c as int + 32) as char else c
  }

  function UpperChar(c: char): char {
    if 'a' <= c <= 'z' then (c as int - 32) as char else c
  }

  /** `s.lower()` over ASCII letters. */
  function Lower(s: string): (r: string)
    ensures |r| == |s| && forall i :: 0 <= i < |s| ==> r[i] == LowerChar(s[i])
  {
    seq(|s|, i requires 0 <= i < |s| => LowerChar(s[i]))
  }

  /** `s.upper()` over ASCII letters. */
  function Upper(s: string): (r: string)
    ensures |r| == |s| && forall i :: 0 <= i < |s| ==> r[i] == UpperChar(s[i])
  {
    seq(|s|, i requires 0 <= i < |s| => UpperChar(s[i]))
  }

  // ---------------------------------------------------------------------------
  // Lines and words

  /** `[l.strip() for l in s.split('\n') if l.strip()]`; iterating a text file
      line by line and stripping gives the same list. */
  function NonBlankLines(s: string): (r: seq<string>)
    ensures forall i :: 0 <= i < |r| ==> r[i] != "" && !IsSpace(r[i][0]) && !IsSpace(r[i][|r[i]| - 1])
  {
    KeepNonBlank(Split(s, '\n'))
  }

  /** The stripped forms of the lines that are not blank, in order. */
  function KeepNonBlank(lines: seq<string>): (r: seq<string>)
    ensures |r| <= |lines|
    ensures forall i :: 0 <= i < |r| ==> r[i] != "" && !IsSpace(r[i][0]) && !IsSpace(r[i][|r[i]| - 1])
  {
    if lines == [] then []
    else
      var t := Strip(lines[0]);
      var rest := KeepNonBlank(lines[1..]);
      if t == "" then rest else [t] + rest
  }

  /** A line with content, no line break, and no whitespace at either end. */
  predicate TrimmedLine(line: string) {
    line != "" && '\n' !in line && !IsSpace(line[0]) && !IsSpace(line[|line| - 1])
  }

  /** Three pieces joined by a separator none of them contains are split
      back apart. */
  lemma SplitThree(a: string, b: string, c: string, sep: char)
    requires sep !in a && sep !in b && sep !in c
    ensures Split(a + [sep] + b + [sep] + c, sep) == [a, b, c]
  {
    var t := b + [sep] + c;
    assert a + [sep] + b + [sep] + c == a + [sep] + t;
    SplitAfterField(b, sep, c);
    assert Split(c, sep) == [c];
    SplitAfterField(a, sep, t);
  }

  /** Lines that are already trimmed and not blank are kept as they are. */
  lemma {:induction false} KeepNonBlankKeeps(lines: seq<string>)
    requires forall k :: 0 <= k < |lines| ==> TrimmedLine(lines[k])
    ensures KeepNonBlank(lines) == lines
  {
    if lines != [] {
      StripTrimmed(lines[0]);
      KeepNonBlankKeeps(lines[1..]);
    }
  }

  /** Three trimmed lines joined by line breaks are the text's non-blank lines. */
  lemma ThreeLines(a: string, b: string, c: string)
    requires TrimmedLine(a) && TrimmedLine(b) && TrimmedLine(c)
    ensures NonBlankLines(a + "\n" + b + "\n" + c) == [a, b, c]
  {
    SplitThree(a, b, c, '\n');
    KeepNonBlankKeeps([a, b, c]);
  }

  /** `s.split()[0]`: the first whitespace-delimited word, None where Python
      raises IndexError (no word at all). */
  function FirstWord(s: string): (r: Option<string>)
    ensures r.None? <==> AllSpace(s)
    ensures r.Some? ==> r.value != "" && forall i :: 0 <= i < |r.value| ==> !IsSpace(r.value[i])
  {
    var t := TrimStart(s);
    if t == "" then
      None
    else
      assert !AllSpace(s) by { assert IsSpace(s[|s| - |t|]) == IsSpace(t[0]); }
      Some(TakeWord(t))
  }

  /** The longest prefix of `s` with no whitespace. */
  function TakeWord(s: string): (r: string)
    ensures StartsWith(s, r)
    ensures forall i :: 0 <= i < |r| ==> !IsSpace(r[i])
    ensures |r| == |s| || IsSpace(s[|r|])
  {
    if s == [] || IsSpace(s[0]) then [] else [s[0]] + TakeWord(s[1..])
  }

  /** A word followed by whitespace is taken whole. */
  lemma {:induction false} TakeWordBeforeSpace(a: string, b: string)
    requires forall i :: 0 <= i < |a| ==> !IsSpace(a[i])
    requires b != [] && IsSpace(b[0])
    ensures TakeWord(a + b) == a
  {
    if a == [] {
      assert a + b == b;
    } else {
      var ab := a + b;
      assert ab[0] == a[0] && ab[1..] == a[1..] + b;
      TakeWordBeforeSpace(a[1..], b);
      assert [a[0]] + a[1..] == a;
    }
  }

  // ---------------------------------------------------------------------------
  // Integers: `int(s)` and `str(n)` in base 10

  predicate IsDigit(c: char) {
    '0' <= c <= '9'
  }

  predicate AllDigits(s: string) {
    forall i :: 0 <= i < |s| ==> IsDigit(s[i])
  }

  /** The value of a run of ASCII digits. */
  function DigitsValue(s: string): nat
    requires AllDigits(s)
  {
    if s == [] then 0
    else 10 * DigitsValue(s[..|s| - 1]) + (s[|s| - 1] as int - '0' as int)
  }

  /** `int(s)` in base 10: surrounding whitespace, then an optional sign and at
      least one ASCII digit. None where Python raises ValueError. */
  function ParseInt(s: string): (r: Option<int>)
    ensures r.Some? <==> IsIntLiteral(Strip(s))
  {
    var t := Strip(s);
    if |t| > 0 && t[0] == '-' && IsIntLiteral(t) then Some(0 - DigitsValue(t[1..]))
    else if |t| > 0 && t[0] == '+' && IsIntLiteral(t) then Some(DigitsValue(t[1..]))
    else if IsIntLiteral(t) then Some(DigitsValue(t))
    else None
  }

  /** What `int()` accepts once whitespace is stripped. */
  predicate IsIntLiteral(t: string) {
    if |t| > 0 && (t[0] == '-' || t[0] == '+') then |t| > 1 && AllDigits(t[1..])
    else |t| > 0 && AllDigits(t)
  }

  /** `str(n)` for a non-negative integer: its decimal digits, no leading zero. */
  function NatToDecimal(n: nat): (r: string)
    ensures r != "" && AllDigits(r)
    ensures DigitsValue(r) == n
    ensures |r| > 1 ==> r[0] != '0'
  {
    var d := ['0' + (n % 10) as char];
    if n < 10 then
      d
    else
      var h := NatToDecimal(n / 10);
      var r := h + d;
      assert r[..|r| - 1] == h;
      r
  }

  /** `str(n)` for any integer: a minus sign exactly for negative `n`, then
      the digits of `|n|` with no leading zero. */
  function IntToString(n: int): (r: string)
    ensures r != "" && ((r[0] == '-') <==> n < 0)
    ensures n < 0 ==> |r| > 1 && AllDigits(r[1..]) && DigitsValue(r[1..]) == -n && (|r| > 2 ==> r[1] != '0')
    ensures n >= 0 ==> AllDigits(r) && DigitsValue(r) == n && (|r| > 1 ==> r[0] != '0')
  {
    if n < 0 then
      var d := NatToDecimal(-n);
      assert ("-" + d)[1..] == d;
      "-" + d
    else
      NatToDecimal(n)
  }

  /** `int(str(n)) == n`: the decimal rendering of an integer parses back to it. */
  lemma ParseIntToString(n: int)
    ensures ParseInt(IntToString(n)) == Some(n)
  {
    var s := IntToString(n);
    var d := NatToDecimal(if n < 0 then -n else n);
    assert !IsSpace(d[0]) && !IsSpace(d[|d| - 1]);
    if n < 0 {
      assert s == "-" + d && s[1..] == d;
      assert !IsSpace(s[0]) && !IsSpace(s[|s| - 1]);
      StripTrimmed(s);
      assert IsIntLiteral(s);
    } else {
      StripTrimmed(s);
      assert s[0] != '-' && s[0] != '+';
      assert IsIntLiteral(s);
    }
  }

  // ---------------------------------------------------------------------------
  // repr() of a string

  /** A character `repr` writes as an escape under the given quote: the quote
      itself, the backslash, and the non-printable characters of ASCII and
      Latin-1 (controls, DEL, U+0080 to U+00A0, and the soft hyphen). */
  predicate NeedsEscape(c: char, quote: char) {
    || c == quote || c == '\\' || c < ' ' || c == '\U{7F}'
    || ('\U{80}' <= c <= '\U{A0}') || c == '\U{AD}'
  }

  function HexDigit(n: nat): char
    requires n < 16
  {
    "0123456789abcdef"[n]
  }

  /** One character as `repr` writes it between the quotes. */
  function EscapeChar(c: char, quote: char): (r: string)
    ensures NeedsEscape(c, quote) ==> |r| >= 2 && r[0] == '\\'
    ensures !NeedsEscape(c, quote) ==> r == [c]
  {
    if c == quote || c == '\\' then ['\\', c]
    else if c == '\t' then "\\t"
    else if c == '\n' then "\\n"
    else if c == '\r' then "\\r"
    else if NeedsEscape(c, quote) then "\\x" + [HexDigit(c as int / 16), HexDigit(c as int % 16)]
    else [c]
  }

  /** Every character of `s` as `repr` writes it, in order. */
  function Escape(s: string, quote: char): (r: string)
    ensures |r| >= |s|
    ensures (forall i :: 0 <= i < |s| ==> !NeedsEscape(s[i], quote)) ==> r == s
  {
    if s == [] then [] else EscapeChar(s[0], quote) + Escape(s[1..], quote)
  }

  /** Escaping works character by character, so it distributes over
      concatenation. */
  lemma {:induction false} EscapeAppend(a: string, b: string, quote: char)
    ensures Escape(a + b, quote) == Escape(a, quote) + Escape(b, quote)
  {
    if a == [] {
      assert a + b == b;
    } else {
      var ab := a + b;
      var c := EscapeChar(a[0], quote);
      assert ab[0] == a[0] && ab[1..] == a[1..] + b;
      assert Escape(ab, quote) == c + Escape(ab[1..], quote);
      EscapeAppend(a[1..], b, quote);
      ConcatAssoc(c, Escape(a[1..], quote), Escape(b, quote));
    }
  }

  lemma ConcatAssoc<T>(x: seq<T>, y: seq<T>, z: seq<T>)
    ensures x + (y + z) == (x + y) + z
  {
  }

  /** `repr(s)` for a string: double quotes when `s` holds a single quote and
      no double quote, single quotes otherwise, around the escaped text. */
  function Repr(s: string): (r: string)
    ensures |r| >= |s| + 2 && r[|r| - 1] == r[0]
    ensures (r[0] == '"') <==> ('\'' in s && '"' !in s)
    ensures r[0] == '"' || r[0] == '\''
    ensures (forall i :: 0 <= i < |s| ==> !NeedsEscape(s[i], r[0])) ==> r == [r[0]] + s + [r[0]]
  {
    var quote := if '\'' in s && '"' !in s then '"' else '\'';
    [quote] + Escape(s, quote) + [quote]
  }

}

=== FILE: validator.dfy ===
/** The validation service: checks run before parsing, each answering with a
    verdict that is either valid or invalid with a Swedish message for the
    user. */
module Validator {
  import opened Results
  import opened Text
  import opened FileHandler

  /** `(is_valid, error_message)`, where the message is present exactly when
      the check failed. */
  datatype Verdict = Valid | Invalid(message: string)

  /** What the content check looks for: a summary header anywhere in a line,
      and a transaction header in a line's first `;` field. */
  const SummaryHeaderStart := "MARKNADSNAMN"
  const TransactionHeaderStart := "DATUM"

  /** The columns a transaction header must name. */
  const RequiredTransactionColumns: seq<string> :=
    ["DATUM", "TID", "MARKNADSNAMN", "SWISH NUMMER", "NAMN", "MOBILNUMMER", "BELOPP"]

  const NoFileChosen := "Ingen fil vald"
  const FileMissing := "Filen kunde inte hittas"
  const NotCsv := "Endast CSV-filer accepteras"
  const EmptyFile := "CSV-filen är tom"
  const NoSummarySection := "CSV-filen saknar sammanfattningsdel (MARKNADSNAMN)"
  const NoTransactionSection := "CSV-filen saknar transaktionsdel (DATUM)"
  const NoTransactions := "CSV-filen innehåller inga transaktioner"
  const BadEncoding := "Felaktig filkodning. Kontrollera att filen är UTF-8"
  const CouldNotValidate := "Kunde inte validera fil: "
  const MissingColumnsPrefix := "CSV saknar obligatoriska kolumner: "

  // ---------------------------------------------------------------------------
  // The file path

  /** `path.lower().endswith('.csv')`. */
  predicate HasCsvExtension(path: string) {
    EndsWith(Lower(path), ".csv")
  }

  /** `validate_file_path`: an empty path, a path that does not exist (as the
      file system reports through `fileExists`) and a path without a `.csv`
      extension are refused, in that order. */
  function ValidateFilePath(path: string, fileExists: bool): (v: Verdict)
    ensures v.Valid? <==> path != "" && fileExists && HasCsvExtension(path)
    ensures v.Valid? ==> |path| >= 4 && Lower(path[|path| - 4..]) == ".csv"
    ensures path == "" ==> v == Invalid(NoFileChosen)
    ensures path != "" && !fileExists ==> v == Invalid(FileMissing)
    ensures path != "" && fileExists && !HasCsvExtension(path) ==> v == Invalid(NotCsv)
  {
    if path == "" then Invalid(NoFileChosen)
    else if !fileExists then Invalid(FileMissing)
    else if !HasCsvExtension(path) then Invalid(NotCsv)
    else
      assert Lower(path)[|path| - 4..] == Lower(path[|path| - 4..]);
      Valid
  }

  /** Mapping ASCII letters to upper case and back lands where lower-casing does. */
  lemma LowerUpper(s: string)
    ensures Lower(Upper(s)) == Lower(s)
  {
    assert forall i :: 0 <= i < |s| ==> LowerChar(UpperChar(s[i])) == LowerChar(s[i]);
  }

  /** The extension check ignores letter case: a path and its upper- or
      lower-case form are accepted alike. */
  lemma CsvExtensionIgnoresCase(path: string)
    ensures HasCsvExtension(Upper(path)) <==> HasCsvExtension(path)
    ensures HasCsvExtension(Lower(path)) <==> HasCsvExtension(path)
  {
    LowerUpper(path);
    assert Lower(Lower(path)) == Lower(path);
  }

  // ---------------------------------------------------------------------------
  // The file content

  /** A line the content check takes for the summary header. */
  predicate IsSummaryHeader(line: string) {
    Contains(line, SummaryHeaderStart)
  }

  /** A line the content check takes for the transaction header. */
  predicate IsTransactionHeader(line: string) {
    Contains(FirstField(line, ';'), TransactionHeaderStart)
  }

  /** The index of the first line at or after `from` that is a transaction header. */
  function FirstTransactionHeader(lines: seq<string>, from: nat): (r: Option<nat>)
    ensures r.Some? ==> from <= r.value < |lines| && IsTransactionHeader(lines[r.value])
    ensures r.Some? ==> forall k :: from <= k < r.value ==> !IsTransactionHeader(lines[k])
    ensures r.None? ==> forall k :: from <= k < |lines| ==> !IsTransactionHeader(lines[k])
    decreases |lines| - from
  {
    if from >= |lines| then None
    else if IsTransactionHeader(lines[from]) then Some(from)
    else FirstTransactionHeader(lines, from + 1)
  }

  /** Whether some line is a summary header. */
  function AnySummaryHeader(lines: seq<string>): (b: bool)
    ensures b <==> exists i :: 0 <= i < |lines| && IsSummaryHeader(lines[i])
  {
    if lines == [] then false
    else
      var rest := AnySummaryHeader(lines[1..]);
      assert rest <==> exists i :: 1 <= i < |lines| && IsSummaryHeader(lines[i]) by {
        if rest {
          var i :| 0 <= i < |lines[1..]| && IsSummaryHeader(lines[1..][i]);
          assert IsSummaryHeader(lines[i + 1]);
        }
        if exists i :: 1 <= i < |lines| && IsSummaryHeader(lines[i]) {
          var i :| 1 <= i < |lines| && IsSummaryHeader(lines[i]);
          assert IsSummaryHeader(lines[1..][i - 1]);
        }
      }
      IsSummaryHeader(lines[0]) || rest
  }

  /** The checks on the stripped non-blank lines of a non-blank text. */
  function ValidateLines(lines: seq<string>): (v: Verdict)
    ensures v.Valid? <==>
      && (exists i :: 0 <= i < |lines| && IsSummaryHeader(lines[i]))
      && (exists j :: 0 <= j < |lines| - 1 && IsTransactionHeader(lines[j]) &&
            forall k :: 0 <= k < j ==> !IsTransactionHeader(lines[k]))
    ensures (forall i :: 0 <= i < |lines| ==> !IsSummaryHeader(lines[i])) ==> v == Invalid(NoSummarySection)
    ensures ((exists i :: 0 <= i < |lines| && IsSummaryHeader(lines[i])) &&
             (forall j :: 0 <= j < |lines| ==> !IsTransactionHeader(lines[j]))) ==> v == Invalid(NoTransactionSection)
    ensures ((exists i :: 0 <= i < |lines| && IsSummaryHeader(lines[i])) &&
             |lines| > 0 && IsTransactionHeader(lines[|lines| - 1]) &&
             (forall j :: 0 <= j < |lines| - 1 ==> !IsTransactionHeader(lines[j]))) ==> v == Invalid(NoTransactions)
    ensures v.Invalid? ==> v.message in {NoSummarySection, NoTransactionSection, NoTransactions}
  {
    if !AnySummaryHeader(lines) then Invalid(NoSummarySection)
    else
      match FirstTransactionHeader(lines, 0)
      case None => Invalid(NoTransactionSection)
      case Some(j) =>
        if j >= |lines| - 1 then
          Invalid(NoTransactions)
        else
          Valid
  }

  /** `validate_file_content` on what reading the file gave: a blank text is
      empty; otherwise its stripped non-blank lines are checked; a decoding
      failure and any other read failure have messages of their own. */
  function ValidateFileContent(content: FileContent): (v: Verdict)
    ensures v.Valid? <==> content.Text? && !AllSpace(content.text) && ValidateLines(NonBlankLines(content.text)).Valid?
    ensures content.Text? && AllSpace(content.text) ==> v == Invalid(EmptyFile)
    ensures content.Text? && !AllSpace(content.text) ==> v == ValidateLines(NonBlankLines(content.text))
    ensures content.Undecodable? ==> v == Invalid(BadEncoding)
    ensures content.NotFound? || content.Unreadable? ==> v == Invalid(CouldNotValidate + content.reason)
  {
    match content
    case Text(s) => if AllSpace(s) then Invalid(EmptyFile) else ValidateLines(NonBlankLines(s))
    case Undecodable(_) => Invalid(BadEncoding)
    case NotFound(reason) => Invalid(CouldNotValidate + reason)
    case Unreadable(reason) => Invalid(CouldNotValidate + reason)
  }

  /** A text is accepted only if it has a data line after its first
      transaction header, so it has at least two non-blank lines. */
  lemma AcceptedHasTwoLines(content: FileContent)
    requires ValidateFileContent(content).Valid?
    ensures |NonBlankLines(content.text)| >= 2
  {
  }

  // ---------------------------------------------------------------------------
  // Required columns

  /** The names of `required` not in `header`, in `required`'s order. */
  function MissingColumns(required: seq<string>, header: seq<string>): (r: seq<string>)
    ensures forall c :: c in r <==> c in required && c !in header
    ensures |r| <= |required|
    ensures r == [] <==> forall c :: c in required ==> c in header
    ensures |required| == 1 ==> r == (if required[0] in header then [] else required)
  {
    if required == [] then []
    else
      var rest := MissingColumns(required[1..], header);
      assert forall c :: c in required <==> c == required[0] || c in required[1..];
      if required[0] in header then rest else [required[0]] + rest
  }

  /** The missing columns keep `required`'s order: those of a concatenation
      are those of the first part followed by those of the second. */
  lemma {:induction false} MissingColumnsAppend(a: seq<string>, b: seq<string>, header: seq<string>)
    ensures MissingColumns(a + b, header) == MissingColumns(a, header) + MissingColumns(b, header)
  {
    if a == [] {
      assert a + b == b;
    } else {
      var ab := a + b;
      assert ab[0] == a[0] && ab[1..] == a[1..] + b;
      MissingColumnsAppend(a[1..], b, header);
      if a[0] !in header {
        ConcatAssoc([a[0]], MissingColumns(a[1..], header), MissingColumns(b, header));
      }
    }
  }

  /** `validate_required_columns`: valid exactly when the header names every
      required column; otherwise the message lists the missing ones, joined
      by `, `. */
  function ValidateRequiredColumns(header: seq<string>): (v: Verdict)
    ensures v.Valid? <==> forall c :: c in RequiredTransactionColumns ==> c in header
    ensures v.Invalid? ==> v.message == MissingColumnsPrefix + JoinWith(MissingColumns(RequiredTransactionColumns, header), ", ")
  {
    var missing := MissingColumns(RequiredTransactionColumns, header);
    if missing != [] then Invalid(MissingColumnsPrefix + JoinWith(missing, ", ")) else Valid
  }

  /** Adding columns to a header never makes it fail the column check. */
  lemma RequiredColumnsMonotone(header: seq<string>, extra: seq<string>)
    requires ValidateRequiredColumns(header).Valid?
    ensures ValidateRequiredColumns(header + extra).Valid?
  {
  }

  // ---------------------------------------------------------------------------
  // Everything

  /** `validate_complete`: the path checks, then the content checks; the first
      failure is the answer. */
  function ValidateComplete(path: string, fileExists: bool, content: FileContent): (v: Verdict)
    ensures v.Valid? <==> ValidateFilePath(path, fileExists).Valid? && ValidateFileContent(content).Valid?
    ensures ValidateFilePath(path, fileExists).Invalid? ==> v == ValidateFilePath(path, fileExists)
    ensures ValidateFilePath(path, fileExists).Valid? ==> v == ValidateFileContent(content)
  {
    var p := ValidateFilePath(path, fileExists);
    if p.Invalid? then p else ValidateFileContent(content)
  }
}
